=== FILE: README.md ===
# wa-gcal-gsheet-integration, modelled in Dafny

A WhatsApp bot for content planning. It reads deadlines from a Google Sheet and events from a Google
Calendar, answers chat commands, and reminds a group five minutes before an event starts. This
project models the logic of the bot around those services and proves what that logic promises:

- **Deadline ranking and lookup** (`src/lib/googleSheets.js`, module `Sheets`):
  - the five nearest upcoming deadlines and the five latest past ones;
  - the detail of a post found by its code.

  The fetched rows are an input. The date parsing of moment is a function-typed parameter. The sort is
  a stable insertion sort, matching `Array.prototype.sort` since ES2019.
- **Calendar logic** (`src/lib/googleCalendar.js`, module `Calendar`):
  - shaping fetched events into display records;
  - the five-minute reminder window and the choice of the first event in it;
  - the title and description of an event the bot schedules, which provably read back as sheet and code.
- **Reminder poll** (`src/lib/whatsapp.js`, module `Reminders`): `processEventReminders` is a class
  `ReminderLog`. Its field `sentReminders` is the shared list and its method `Tick` is one poll.
  The model proves that, with polls running one after another, at most one reminder goes out per
  event and the list only grows by the sent id.
- **Message handler** (`src/lib/whatsapp.js`, modules `Router` and `Replies`):
  - `Route` maps one message to the ordered list of actions the handler takes.
  - The flows that depend on fetched data (events, client list, one client's schedule, post detail)
    are functions of the fetched values.
  - The `forEach` loops that build the tag-all message, the client list and the schedule are methods.
    Each is proved against the function it accumulates.
  - Each reply text is proved to read back line by line as its items in order.

Shared pieces:
- `JsStrings` models the JavaScript string built-ins used: `split` on one character, `join`, `trim`,
  `slice`, `startsWith`, `includes`, ASCII `toLowerCase`/`toUpperCase`, and truthiness.
- `Wrappers` holds `Option`, used for `undefined` and `null`.

The handler's command families `!help`, `!all`/`!groupid`/`!userid`, stickers, `!events`,
`!jadwalpost`, `!jadwalkan` and `!detail ` are pairwise disjoint (`Router.FamiliesDisjoint`), so a
message triggers at most one action (`Router.Route`).

The Google fetches can fail in two ways. `authenticateWithServiceAccount` throws when the credentials
are missing or authentication fails. `getContentPlanningData`, `getSheetList`, `getUpcomingEvents` and
`getEventDetails` await it outside their own `try`, so that exception reaches the handler's `catch` and
its error reply. The `!events`, client list, client schedule and post detail flows therefore take each
fetch as an `Option` (None for the exception), or, for the details of a matched event, as a flag, and
have an error outcome. An error of the API call itself is caught inside `getContentPlanningData` and
`getSheetList`, which then return the empty list; `getUpcomingEvents` rethrows it. The error replies
of the `!all` and `!jadwalkan` branches come from the WhatsApp client and the calendar insert, which
are not modelled (see "Left out").

## Model

| member | source | states |
|---|---|---|
| Sheets.Selected | src/lib/googleSheets.js:55-71 | the map/filter after the header keeps exactly the rows whose column 2 parses and passes the cutoff, each built from its own row, in row order |
| Sheets.Insert | src/lib/googleSheets.js:72 | inserting into a list adds exactly that element (multiset) |
| Sheets.InsertRanked | src/lib/googleSheets.js:72 | inserting an earlier row into a ranked list keeps it ranked by deadline, ties by row (stability) |
| Sheets.Sort | src/lib/googleSheets.js:72 | the sort is a permutation of the kept rows |
| Sheets.SortRanked | src/lib/googleSheets.js:72 | sorting rows given in row order ranks them by the comparator with ties in row order |
| Sheets.TopFive | src/lib/googleSheets.js:55-75 | five rows, or every kept row when fewer qualify; ranked and complete by TopFiveSpec |
| Sheets.TopFiveOutranks | src/lib/googleSheets.js:75 | after `slice(0, 5)` a ranked row is kept or outranked by all five kept rows |
| Sheets.TopFiveFromRows | src/lib/googleSheets.js:55-75 | every row a ranking returns is after the header, qualifies and is built from its own row |
| Sheets.SortedMember | src/lib/googleSheets.js:72 | every sorted element is one of the unsorted ones |
| Sheets.TopFiveComplete | src/lib/googleSheets.js:55-75 | every qualifying row is in the top five or outranked by all five |
| Sheets.TopFiveSpec | src/lib/googleSheets.js:55-75 | at most five rows, ranked, none the header, each qualifying; nothing better left out |
| Sheets.UpcomingDeadlines | src/lib/googleSheets.js:50-76 | at most five records, each due on or after the start of today, non-decreasing by deadline |
| Sheets.LastDeadlines | src/lib/googleSheets.js:79-105 | at most five records, each due strictly before now, non-increasing by deadline |
| Sheets.TiesKeepRowOrder | src/lib/googleSheets.js:72 | equal deadlines keep their row order in either ranking |
| Sheets.HeaderAndBadDatesExcluded | src/lib/googleSheets.js:55-69 | neither the header nor a row whose date does not parse reaches a ranking |
| Sheets.RecordColumns | src/lib/googleSheets.js:57-62 | each record is code col 0, format col 1, parsed deadline col 2, type col 3, title col 4, status col 9 of one non-header row |
| Sheets.FindCode | src/lib/googleSheets.js:112 | `find` gives the first row with column 0 equal to the code, or none when no row has it |
| Sheets.PostDetailByCode | src/lib/googleSheets.js:108-131 | null exactly when no non-header row has the code in column 0; otherwise the first such row, mapped column by column (0 to 9) |
| Calendar.OrElse | src/lib/googleCalendar.js:35-36 | `a \|\| b` is truthy exactly when one of them is |
| Calendar.FormatEvent | src/lib/googleCalendar.js:28-47 | a warning line exactly when the start is missing, with the title or 'No title'; otherwise the id is kept, the summary defaults to 'No title', the start text is the start format of `dateTime \|\| date`, and the end text is the end format of a present end or 'N/A' |
| Calendar.FormatAll | src/lib/googleCalendar.js:28-48 | one output per fetched event, in the same order |
| Calendar.UpcomingEvents | src/lib/googleCalendar.js:22-50 | a missing item list gives no events; otherwise one output per event, each the formatted record or warning of its event (FormatAll), a warning exactly for events without a start, ids kept |
| Calendar.Filter | src/lib/googleCalendar.js:90-97 | the filter keeps only records of the list whose start is strictly inside the window, and no more elements than the list has |
| Calendar.EventSummary | src/lib/googleCalendar.js:116 | the title `Posting <sheet> [<code>]` reads back as sheet and code when the sheet has no space |
| Calendar.EventDescription | src/lib/googleCalendar.js:117 | the description reads back as sheet and code when the sheet has no space |
| Calendar.FirstInWindow | src/lib/googleCalendar.js:90-98 | the first position whose start is strictly inside (now, now + 5 min), or none exactly when no event is |
| Calendar.FilterHead | src/lib/googleCalendar.js:90-97 | the filter is empty exactly when no event is in the window; its first element is the first event in it |
| Calendar.EventReminder | src/lib/googleCalendar.js:84-102 | null exactly when no event starts strictly inside the window; otherwise an event starting inside it with no earlier event inside it |
| Calendar.SummaryRoundTrip | src/lib/googleCalendar.js:116 | `Posting <sheet> [<code>]` reads back as sheet and code when the sheet has no space |
| Calendar.DescriptionRoundTrip | src/lib/googleCalendar.js:117 | `Post untuk klien <sheet> dengan kode <code>` reads back as sheet and code |
| Calendar.NewEventRequest | src/lib/googleCalendar.js:105-117 | the title and description read back as sheet and code; the start text is the date, a space and the start time; the end text is the date, a space and the end time, or "undefined" when there is none |
| Reminders.ReminderLog.constructor | src/lib/whatsapp.js:120 | the log starts as the loaded list, which is also the saved list |
| Reminders.ReminderLog.Tick | src/lib/whatsapp.js:75-94 | a reminder goes to the group exactly when an event was picked, is not logged and is due; then the id is appended once and saved; otherwise nothing changes; no duplicates are introduced |
| Reminders.Due | src/lib/whatsapp.js:79-84 | an event starting strictly inside the next five minutes is due; a due event has a start that parses |
| Reminders.PickedIsDue | src/lib/whatsapp.js:79-84 | an event picked at an earlier or equal clock reading is always due |
| Reminders.RepeatedTickIsSilent | src/lib/whatsapp.js:82-84 | a tick repeating the previous one sends nothing; the list grows by at most one |
| Reminders.FirstReminderIsSent | src/lib/whatsapp.js:84-91 | an empty log and an event three minutes ahead: one reminder, and the id is logged |
| JsStrings.Split | src/lib/whatsapp.js:265 | `split` gives at least one piece, none holding the separator, and joining gives the text back |
| JsStrings.SplitFirstTwo | src/lib/whatsapp.js:320 | `split` gives one piece exactly when the separator is absent, and then the whole text; otherwise the text starts with piece 0, the separator and piece 1, followed by nothing or the separator |
| JsStrings.SplitJoin | src/lib/whatsapp.js:218 | splitting a join of separator-free pieces gives the pieces back |
| JsStrings.Trim | src/lib/whatsapp.js:206 | `trim` leaves no white space at either end |
| JsStrings.TrimFrame | src/lib/whatsapp.js:285 | trimming white space around a text that neither starts nor ends with white space gives that text |
| JsStrings.ToLower | src/lib/whatsapp.js:227 | `toLowerCase` keeps the length, maps each letter, and leaves no upper-case letter |
| JsStrings.ToUpper | src/lib/whatsapp.js:343 | `toUpperCase` keeps the length, maps each letter, and leaves no lower-case letter |
| Router.Phone | src/lib/whatsapp.js:66 | the phone part of an id holds no '@' |
| Router.Mentions | src/lib/whatsapp.js:68 | one mention per id, each the phone part followed by '@c.us' |
| Router.BuildTagAll | src/lib/whatsapp.js:61-69 | the loop's text is `@phone ` per id in order, and its mentions are the mention per id |
| Router.TagTextAppend | src/lib/whatsapp.js:65-67 | the text of concatenated id lists is the concatenation of their texts |
| Router.TagTextTokens | src/lib/whatsapp.js:65-67 | split on spaces, the tag text reads back as the `@phone` tokens in id order and a last empty piece |
| Router.MentionOfCanonical | src/lib/whatsapp.js:66-68 | an id already `phone@c.us` is mentioned as itself |
| Router.AllowedMentionsAreIds | src/lib/whatsapp.js:157-163 | the mentions built for the allowed users are exactly their ids |
| Router.Route | src/lib/whatsapp.js:132-382 | the whole handler: at most one action per message; each command's route is stated by the lemmas HelpRoute, GroupIdRoute, UserIdInGroupRoute, UserIdPrivateRoute, StickerRoute, NoCommandIgnored, RefusedTagAllStops, AllowedTagAll, GroupCommandsInPrivateChat, JadwalpostPrecedence, JadwalkanValidation, DetailValidation and EventsRouting |
| Router.OriginActions | src/lib/whatsapp.js:138-191 | the group and private-chat branch takes at most one action, and only for `!all`, `!groupid` or `!userid...` |
| Router.StickerActions | src/lib/whatsapp.js:194-202 | a sticker exactly for `!dea`, `!dimas` and `!ananta`, named by the text after the '!' |
| Router.EventsQuery | src/lib/whatsapp.js:206 | the query has no white space at either end, and is empty for a body of at most eight characters |
| Router.JadwalpostActions | src/lib/whatsapp.js:227-267 | the `!jadwalpost` chain takes one action exactly for a body that starts with `!jadwalpost` in any case |
| Router.SplitTime | src/lib/whatsapp.js:320 | the start is the time text up to its first '-', all of it when there is none; the end is the text between the first '-' and the next one or the end, absent exactly when there is no '-' |
| Router.ScheduleOf | src/lib/whatsapp.js:308-321 | the calendar call gets the trimmed sheet, code and date, and the start and end that SplitTime reads from the trimmed time argument |
| Router.DetailActions | src/lib/whatsapp.js:332-343 | the `!detail ` branch takes one action exactly for a body that starts with `!detail ` |
| Router.FamiliesDisjoint | src/lib/whatsapp.js:134-332 | no message belongs to two command families |
| Router.Quiet | src/lib/whatsapp.js:138-343 | each handler takes at most one action, and none outside its own family |
| Router.RefusedTagAllStops | src/lib/whatsapp.js:146-152 | `!all` in a group off the allow-list gets only the refusal, and nothing later runs |
| Router.AllowedTagAll | src/lib/whatsapp.js:146-172 | `!all` in an allowed group sends only the tag-all message for the allowed users |
| Router.HelpRoute | src/lib/whatsapp.js:134-136 | `!help` gets only the help text |
| Router.GroupIdRoute | src/lib/whatsapp.js:175-176 | `!groupid` in a group gets only the group's id |
| Router.UserIdInGroupRoute | src/lib/whatsapp.js:177-182 | `!userid...` in a group gets only the user-id reply, whose fallback is `author \|\| from` |
| Router.UserIdPrivateRoute | src/lib/whatsapp.js:188-189 | `!userid` in a private chat gets only the sender's own id |
| Router.StickerRoute | src/lib/whatsapp.js:194-202 | a sticker command gets only its sticker, in any chat |
| Router.NoCommandIgnored | src/lib/whatsapp.js:132-382 | a message outside every command family gets no action |
| Router.GroupCommandsInPrivateChat | src/lib/whatsapp.js:184-187 | in a private chat `!groupid` and `!all` get only "works only in groups" |
| Router.JadwalpostPrecedence | src/lib/whatsapp.js:227-263 | case-insensitively: the guide exactly when the whole message is `!jadwalpost`, otherwise the client list exactly for `!jadwalpost klien...`, otherwise one client's schedule; one action only |
| Router.ClientListCommand | src/lib/whatsapp.js:246 | `!jadwalpost klien` goes to the client list |
| Router.JadwalkanValidation | src/lib/whatsapp.js:307-321 | a missing or empty argument gives only the usage reply and never a calendar call; otherwise only the call, with the time split at '-' |
| Router.DetailValidation | src/lib/whatsapp.js:332-343 | a missing sheet or code gives only the usage reply; otherwise only the lookup, with the code upper-cased |
| Router.EventsRouting | src/lib/whatsapp.js:205-206 | `!events...` goes only to the event flow, with the query from index 8, trimmed |
| Router.FirstMatchShift | src/lib/whatsapp.js:210 | a first match after a non-matching head event is the first match of the whole list |
| Router.FirstMatchTail | src/lib/whatsapp.js:210 | a first match of a list with a non-matching record at its head is a first match of its tail |
| Router.FindEvent | src/lib/whatsapp.js:210-223 | "not found" exactly when every event is a record that does not match; the first matching record, with no warning line before it, is always the one found, and a found id is such a first match; when getEventDetails' authentication throws, a match gives the error reply instead |
| Router.EventsReplyOf | src/lib/whatsapp.js:205-224 | a failed fetch is an error; an empty query lists every event, line i built from event i; otherwise the first-match reply |
| Router.ClientsReplyOf | src/lib/whatsapp.js:246-262 | an error exactly when getSheetList threw; no clients exactly when the list is empty; otherwise the list as fetched |
| Router.ClientScheduleReply | src/lib/whatsapp.js:263-303 | an error exactly when getSheetList threw, or the client is known and the sheet fetch threw; refused exactly when the list loaded and the client is missing or unknown, showing the name or "undefined"; for a known client a schedule exactly when the chosen ranking (`last`: past, otherwise upcoming) is non-empty, headed by the upper-cased name, with that ranking's one to five entries |
| Router.ScheduleOnlyFromJadwalpost | src/lib/whatsapp.js:263-267 | only the `!jadwalpost` family asks for a client's schedule, as its only action |
| Router.UpperCaseSheetUnreachable | src/lib/whatsapp.js:266-272 | the client name is lower-cased, so a sheet name with an upper-case letter is never asked for |
| Router.DetailReplyOf | src/lib/whatsapp.js:342-380 | an error exactly when the sheet fetch threw; otherwise found exactly when a non-header row has the upper-cased code in column 0, with the detail of the first such row (PostDetailByCode); the reply repeats the code and sheet as typed |
| Router.ScheduledPostIsRecoverable | src/lib/whatsapp.js:307-321 | the calendar title of a scheduled post reads back as the sheet and code given |
| Replies.Decimal | src/lib/whatsapp.js:253 | `${n}` is a non-empty string of digits with no leading zero |
| Replies.DecimalValue | src/lib/whatsapp.js:253 | the printed digits denote the number |
| Replies.ClientListReply | src/lib/whatsapp.js:251-255 | the reply has no white space at either end; read line by line by ClientListLines |
| Replies.BuildClientList | src/lib/whatsapp.js:251-255 | the loop builds the heading, a blank line and the numbered lines, trimmed |
| Replies.ClientLinesSplit | src/lib/whatsapp.js:252-254 | the appended lines split at line breaks into the numbered lines and a last empty piece |
| Replies.ClientListTrimmed | src/lib/whatsapp.js:255 | the final trim removes only the last line break |
| Replies.ClientListLines | src/lib/whatsapp.js:250-255 | line by line, the client list is the heading, an empty line, then `1. <sheet>`, `2. <sheet>`, ... in list order |
| Replies.StatusText | src/lib/whatsapp.js:293 | the status or 'Belum Ditentukan' is never empty |
| Replies.ScheduleText | src/lib/whatsapp.js:283-296 | the reply has no white space at either end; read line by line by ScheduleLines |
| Replies.BuildSchedule | src/lib/whatsapp.js:283-296 | the loop builds the trimmed heading followed by one entry per deadline, trimmed |
| Replies.HeadingTrimmed | src/lib/whatsapp.js:283-285 | the trimmed heading template is the heading line alone |
| Replies.Blocks | src/lib/whatsapp.js:287-294 | six lines per deadline, the last one empty |
| Replies.EntrySplit | src/lib/whatsapp.js:288-293 | one entry splits into an empty piece and its five lines |
| Replies.EntriesStep | src/lib/whatsapp.js:287-294 | one more deadline appends its entry and a line break |
| Replies.EntriesSplit | src/lib/whatsapp.js:287-294 | all entries split into an empty piece and then five lines and an empty line per deadline |
| Replies.ScheduleTrimmed | src/lib/whatsapp.js:296 | the final trim removes only the last line break |
| Replies.ScheduleLines | src/lib/whatsapp.js:283-296 | line by line, the schedule is the heading, then per deadline in order its number, code and title, date, format, type and status lines, with an empty line between entries |
| Replies.EventListText | src/lib/whatsapp.js:218-219 | the reply starts with the heading and a blank line; read line by line by EventListLines |
| Replies.EventListLines | src/lib/whatsapp.js:218-219 | line by line, the event list is the heading, an empty line, then one bullet line per event in order |

## Left out

- The Google Sheets and Calendar API calls, and the OAuth client of `src/lib/googleAuth.js`, are not modelled. Fetched rows, sheet lists and events are inputs. A fetch that throws, because authentication failed or, for the events, because the API call failed, is `None`. A sheet fetch or sheet list whose API call failed is the empty list, as `getContentPlanningData` and `getSheetList` return it.
- The WhatsApp client is not modelled: construction, QR handling, `msg.reply`, `getChat` and sending. Replies are values: actions from `Router.Route`, reply kinds, and reply texts in `Replies`.
- `Router.Route` has no action for the error replies of the `!all` branch (`getChat` or the send fails) and of the `!jadwalkan` branch (`addEventToCalendar` throws): both come from calls that are not modelled, so the model shows `TagAll` and `ScheduleEvent` as the requests made, not their outcome.
- `msg.getMentions` is not modelled: `Router.ShowUserIds` carries only the fallback `author || from` used when nobody is mentioned, not the list of mentioned users.
- The 30-second `setInterval` timer and async scheduling are not modelled. One poll is one call to `ReminderLog.Tick`; the two clock readings of a poll are parameters. Polls are modelled as running one after another. In the program they can overlap: `processEventReminders` awaits the fetch and the send before it pushes the id, so a poll that takes longer than 30 seconds lets the next one pass the `includes` check and send the same reminder again. The at-most-once property holds only for polls that do not overlap.
- `loadSentReminders` and `saveSentReminders` are not modelled: file I/O. The saved list is the ghost field `persisted`, equal to `sentReminders` after every save.
- `sendSticker` is not modelled: a file check, a base64 read and a media send. `Router.StickerActions` only chooses the sticker. A key like `constructor`, inherited from the object prototype, only leads to a caught error; only the object's own keys are modelled.
- moment parsing, formatting and the Asia/Jakarta conversion are not modelled. Dates are integers in milliseconds. Each parser and formatter is a function parameter, so its result is arbitrary but fixed per input.
- The ISO conversion in `addEventToCalendar` is not modelled. `Calendar.NewEventRequest` stops at the date-and-time texts that moment would parse.
- The long literal texts (help, `!jadwalpost` guide, usage lines, the detail reply, error and "not found" replies) are enumerated reply kinds, not strings. The reminder message is a `Notification` of group, title and start text, not its sentence. Its start text is the display text as fetched; the program parses that text again in the server's local time zone and converts it to Asia/Jakarta before printing, which shifts the shown time on a server not running in that zone.
- The formatted text of `getEventDetails` is not modelled (an API fetch); `Router.EventsReply.EventDetails` carries the event id.
- `JsStrings.ToLower` and `JsStrings.ToUpper` map ASCII letters only, not full Unicode case mapping (for example the German sharp s).
- A `try`/`catch` that turns an exception into an error reply is one error outcome per flow (`EventsError`, `ClientsError`, `ScheduleError`, `DetailError`); what caused the exception is not kept.
- Strings are sequences of Unicode code points, not of UTF-16 code units as in JavaScript. Lengths, `slice` and indexing differ only after a character outside the Basic Multilingual Plane, for example an emoji among the first eight characters of an `!events` message.
- `Replies.ClientListLines`, `Replies.ScheduleLines` and `Replies.EventListLines` only state the line-by-line reading for names and fields without line breaks, and with the last item not ending in white space. Otherwise the final `trim` or the split changes the lines.
- `Reminders.ReminderLog.Tick`: `getEventReminder` and the due check read the clock separately, modelled as the two parameters `selectNow` and `now`. `Reminders.PickedIsDue` covers `selectNow <= now`.

=== FILE: calendar.dfy ===
/**
 * The logic of src/lib/googleCalendar.js around its API calls: shaping the
 * fetched events into display records, picking the event to remind of, and
 * the title and description of an event the bot adds to the calendar.
 */
module Calendar {
  import opened Wrappers
  import opened JsStrings

  /** `event.start` or `event.end`: `dateTime` for a timed event, `date` for an all-day one. */
  datatype EventTime = EventTime(dateTime: Option<string>, date: Option<string>)

  /** An item of the Calendar API's event list, as far as the bot reads it. */
  datatype RawEvent = RawEvent(id: string, summary: Option<string>, start: Option<EventTime>, end: Option<EventTime>)

  /** The record getUpcomingEvents makes of an event, with Asia/Jakarta display times. */
  datatype UpcomingEvent = UpcomingEvent(id: string, summary: string, startDate: string, endDate: string)

  /** An element of getUpcomingEvents' result: a record, or a warning line for an event without a start. */
  datatype Upcoming = Formatted(event: UpcomingEvent) | InvalidStart(line: string)

  /**
   * The moment-timezone conversions: a start instant to 'D MMMM YYYY, HH:mm'
   * and an end instant to 'HH:mm', both in Asia/Jakarta.
   */
  datatype Formats = Formats(startDate: string -> string, endTime: string -> string)

  /** The bullet as the source file spells it (the UTF-8 bytes of '•' read as Windows-1252). */
  const Bullet: string := "\U{E2}\U{20AC}\U{A2}"

  /** `a || b` on possibly undefined strings. */
  function OrElse(a: Option<string>, b: Option<string>): (r: Option<string>)
    ensures Truthy(r) <==> Truthy(a) || Truthy(b)
  {
    if Truthy(a) then a else b
  }

  /** `event.summary || 'No title'` */
  function Title(summary: Option<string>): string {
    if Truthy(summary) then summary.value else "No title"
  }

  /** `event.start && (event.start.dateTime || event.start.date)` */
  predicate HasStart(e: RawEvent) {
    e.start.Some? && (Truthy(e.start.value.dateTime) || Truthy(e.start.value.date))
  }

  /** `event.end?.dateTime || event.end?.date` */
  function EndOf(e: RawEvent): Option<string> {
    if e.end.Some? then OrElse(e.end.value.dateTime, e.end.value.date) else None
  }

  /** The `map` callback of getUpcomingEvents. */
  function FormatEvent(e: RawEvent, fmt: Formats): (u: Upcoming)
    ensures u.InvalidStart? <==> !HasStart(e)
    ensures u.InvalidStart? ==> u.line == Bullet + " " + Title(e.summary) + " - Invalid start date"
    ensures u.Formatted? ==> u.event.id == e.id && u.event.summary == Title(e.summary)
    ensures u.Formatted? ==> u.event.startDate == fmt.startDate(OrElse(e.start.value.dateTime, e.start.value.date).value)
    ensures u.Formatted? ==> u.event.endDate == (if Truthy(EndOf(e)) then fmt.endTime(EndOf(e).value) else "N/A")
  {
    if !HasStart(e) then
      InvalidStart(Bullet + " " + Title(e.summary) + " - Invalid start date")
    else
      var start := OrElse(e.start.value.dateTime, e.start.value.date).value;
      var end := EndOf(e);
      Formatted(UpcomingEvent(e.id, Title(e.summary), fmt.startDate(start),
                              if Truthy(end) then fmt.endTime(end.value) else "N/A"))
  }

  /** `events.map(FormatEvent)`: one output per event, in the same order. */
  function FormatAll(events: seq<RawEvent>, fmt: Formats): (r: seq<Upcoming>)
    ensures |r| == |events|
    ensures forall i :: 0 <= i < |events| ==> r[i] == FormatEvent(events[i], fmt)
  {
    if events == [] then [] else [FormatEvent(events[0], fmt)] + FormatAll(events[1..], fmt)
  }

  /**
   * getUpcomingEvents after the fetch: a missing item list gives no events,
   * otherwise one result per fetched event in the order fetched.
   */
  function UpcomingEvents(items: Option<seq<RawEvent>>, fmt: Formats): (r: seq<Upcoming>)
    ensures items.None? ==> r == []
    ensures items.Some? ==> |r| == |items.value|
    ensures items.Some? ==> forall i :: 0 <= i < |r| ==>
      (r[i].InvalidStart? <==> !HasStart(items.value[i]))
      && (r[i].Formatted? ==> r[i].event.id == items.value[i].id)
    ensures items.Some? ==> r == FormatAll(items.value, fmt)
  {
    match items
    case None => []
    case Some(events) => if |events| == 0 then [] else FormatAll(events, fmt)
  }

  // ---------------------------------------------------------------- reminder window

  /** Five minutes, in milliseconds. */
  const LeadTime: int := 5 * 60 * 1000

  /**
   * `moment(startDate, 'D MMMM YYYY, HH:mm')`: the instant a display string
   * denotes, or None when moment marks it invalid.
   */
  type StartParser = string -> Option<int>

  /**
   * `startTime.isBetween(now, now + 5 min)`: exclusive at both ends. A
   * warning line has no `startDate`, and `moment(undefined, format)` is
   * invalid, so it is never in the window.
   */
  predicate InWindow(u: Upcoming, parse: StartParser, now: int) {
    u.Formatted? && parse(u.event.startDate).Some?
    && now < parse(u.event.startDate).value < now + LeadTime
  }

  /** `events.filter(e => isBetween(...))` */
  function Filter(events: seq<Upcoming>, parse: StartParser, now: int): (r: seq<UpcomingEvent>)
    ensures |r| <= |events|
    ensures forall e :: e in r ==> Formatted(e) in events && InWindow(Formatted(e), parse, now)
  {
    if events == [] then []
    else (if InWindow(events[0], parse, now) then [events[0].event] else []) + Filter(events[1..], parse, now)
  }

  /** The first position whose event is in the window: the reference for getEventReminder. */
  function FirstInWindow(events: seq<Upcoming>, parse: StartParser, now: int): (r: Option<nat>)
    ensures r.None? <==> forall i :: 0 <= i < |events| ==> !InWindow(events[i], parse, now)
    ensures r.Some? ==> r.value < |events| && InWindow(events[r.value], parse, now)
    ensures r.Some? ==> forall j :: 0 <= j < r.value ==> !InWindow(events[j], parse, now)
  {
    if events == [] then None
    else if InWindow(events[0], parse, now) then Some(0)
    else match FirstInWindow(events[1..], parse, now)
      case None => None
      case Some(k) => Some(k + 1)
  }

  /** The filter is empty exactly when no event is in the window, and otherwise starts with the first one. */
  lemma {:induction false} FilterHead(events: seq<Upcoming>, parse: StartParser, now: int)
    ensures var f := Filter(events, parse, now); var k := FirstInWindow(events, parse, now);
      (f == [] <==> k.None?) && (k.Some? ==> f[0] == events[k.value].event)
  {
    if events != [] {
      FilterHead(events[1..], parse, now);
    }
  }

  /**
   * getEventReminder after the fetch: null exactly when no event starts
   * strictly inside (now, now + 5 min); otherwise the first such event in
   * list order.
   */
  function EventReminder(events: seq<Upcoming>, parse: StartParser, now: int): (r: Option<UpcomingEvent>)
    ensures r.None? <==> forall i :: 0 <= i < |events| ==> !InWindow(events[i], parse, now)
    ensures r.Some? ==>
      parse(r.value.startDate).Some? && now < parse(r.value.startDate).value < now + LeadTime
    ensures r.Some? ==>
      exists k :: 0 <= k < |events| && events[k] == Formatted(r.value)
                  && (forall j :: 0 <= j < k ==> !InWindow(events[j], parse, now))
  {
    FilterHead(events, parse, now);
    var matching := Filter(events, parse, now);
    if |matching| > 0 then Some(matching[0]) else None
  }

  // ---------------------------------------------------------------- new events

  /** The title addEventToCalendar gives the event: `Posting <sheet> [<code>]`. */
  function EventSummary(sheet: string, code: string): (s: string)
    ensures ' ' !in sheet ==> ParseSummary(s) == Some((sheet, code))
  {
    if ' ' !in sheet then SummaryRoundTrip(sheet, code); SummaryText(sheet, code) else SummaryText(sheet, code)
  }

  function SummaryText(sheet: string, code: string): string {
    "Posting " + sheet + " [" + code + "]"
  }

  /** The description: `Post untuk klien <sheet> dengan kode <code>`. */
  function EventDescription(sheet: string, code: string): (s: string)
    ensures ' ' !in sheet ==> ParseDescription(s) == Some((sheet, code))
  {
    if ' ' !in sheet then DescriptionRoundTrip(sheet, code); DescriptionText(sheet, code)
    else DescriptionText(sheet, code)
  }

  function DescriptionText(sheet: string, code: string): string {
    "Post untuk klien " + sheet + " dengan kode " + code
  }

  /** Reads the sheet and the code back from a title; the sheet ends at the first space. */
  function ParseSummary(s: string): Option<(string, string)> {
    if StartsWith(s, "Posting ") && |s| >= 9 && s[|s| - 1] == ']' then
      var parts := Split(s[8..|s| - 1], ' ');
      var rest := Join(parts[1..], ' ');
      if StartsWith(rest, "[") then Some((parts[0], rest[1..])) else None
    else None
  }

  /** Reads the sheet and the code back from a description; the sheet ends at the first space. */
  function ParseDescription(s: string): Option<(string, string)> {
    if StartsWith(s, "Post untuk klien ") then
      var parts := Split(s[17..], ' ');
      var rest := Join(parts[1..], ' ');
      if StartsWith(rest, "dengan kode ") then Some((parts[0], rest[12..])) else None
    else None
  }

  /**
   * Sheet names come from a space-separated command, so they hold no space,
   * and then the title determines the sheet and the code.
   */
  lemma SummaryRoundTrip(sheet: string, code: string)
    requires ' ' !in sheet
    ensures ParseSummary(SummaryText(sheet, code)) == Some((sheet, code))
  {
    var s := SummaryText(sheet, code);
    assert s[..8] == "Posting ";
    assert s[8..|s| - 1] == sheet + [' '] + ("[" + code);
    SplitFirst(sheet, "[" + code, ' ');
    var parts := Split(s[8..|s| - 1], ' ');
    assert parts[1..] == Split("[" + code, ' ');
  }

  /** The same for the description. */
  lemma DescriptionRoundTrip(sheet: string, code: string)
    requires ' ' !in sheet
    ensures ParseDescription(DescriptionText(sheet, code)) == Some((sheet, code))
  {
    var s := DescriptionText(sheet, code);
    assert s[..17] == "Post untuk klien ";
    assert s[17..] == sheet + [' '] + ("dengan kode " + code);
    SplitFirst(sheet, "dengan kode " + code, ' ');
    var parts := Split(s[17..], ' ');
    assert parts[1..] == Split("dengan kode " + code, ' ');
    var rest := Join(parts[1..], ' ');
    assert rest[..12] == "dengan kode ";
  }

  /** What addEventToCalendar hands to the Calendar API, before the Asia/Jakarta time conversion. */
  datatype EventRequest = EventRequest(summary: string, description: string, startText: string, endText: string)

  /**
   * addEventToCalendar before the insert call: the title and description as
   * above, and the texts `${startDate} ${startTime}` and `${startDate} ${endTime}`
   * that moment parses as 'DD/MM/YYYY HH:mm' (a missing end time reads "undefined").
   */
  function NewEventRequest(sheet: string, code: string, startDate: string, startTime: string,
                           endTime: Option<string>): (r: EventRequest)
    ensures ' ' !in sheet ==> ParseSummary(r.summary) == Some((sheet, code))
    ensures ' ' !in sheet ==> ParseDescription(r.description) == Some((sheet, code))
    ensures StartsWith(r.startText, startDate + " ") && StartsWith(r.endText, startDate + " ")
    ensures r.startText[|startDate| + 1..] == startTime
    ensures r.endText[|startDate| + 1..] == endTime.GetOr("undefined")
  {
    var r := EventRequest(EventSummary(sheet, code), EventDescription(sheet, code),
                          startDate + " " + startTime, startDate + " " + endTime.GetOr("undefined"));
    assert r.startText[..|startDate| + 1] == startDate + " ";
    assert r.endText[..|startDate| + 1] == startDate + " ";
    r
  }
}

=== FILE: js_strings.dfy ===
/**
 * The JavaScript string built-ins the bot relies on, on `string = seq<char>`:
 * `split` on one character, `trim`, `slice(n)`, `startsWith`, `includes`,
 * `toLowerCase`/`toUpperCase` (ASCII letters only) and truthiness of a
 * possibly undefined string.
 */
module JsStrings {
  import opened Wrappers

  /** `v` is truthy: defined and not the empty string. */
  predicate Truthy(v: Option<string>) {
    v.Some? && v.value != ""
  }

  /** `s.startsWith(p)` */
  predicate StartsWith(s: string, p: string) {
    |p| <= |s| && s[..|p|] == p
  }

  lemma StartsWithAt(s: string, p: string, i: nat)
    requires StartsWith(s, p) && i < |p|
    ensures i < |s| && s[i] == p[i]
  {
    assert s[..|p|][i] == s[i];
  }

  /** `s.includes(sub)` */
  predicate Includes(s: string, sub: string)
    decreases |s|
  {
    StartsWith(s, sub) || (s != [] && Includes(s[1..], sub))
  }

  /** `s.slice(n)` for a non-negative `n`. */
  function SliceFrom(s: string, n: nat): (r: string)
    ensures n <= |s| ==> r == s[n..]
    ensures n >= |s| ==> r == ""
  {
    if n < |s| then s[n..] else ""
  }

  // ---------------------------------------------------------------- split

  /** `parts.join(sep)` */
  function Join(parts: seq<string>, sep: char): string
    decreases |parts|
  {
    if |parts| == 0 then ""
    else if |parts| == 1 then parts[0]
    else parts[0] + [sep] + Join(parts[1..], sep)
  }

  /**
   * `s.split(sep)` for a one-character separator: never empty, no piece
   * contains the separator, and joining the pieces gives `s` back.
   */
  function Split(s: string, sep: char): (parts: seq<string>)
    ensures |parts| >= 1
    ensures forall i :: 0 <= i < |parts| ==> sep !in parts[i]
    ensures Join(parts, sep) == s
    decreases |s|
  {
    if s == [] then [""]
    else
      var rest := Split(s[1..], sep);
      if s[0] == sep then [""] + rest
      else
        assert Join([[s[0]] + rest[0]] + rest[1..], sep) == [s[0]] + Join(rest, sep) by {
          if |rest| > 1 {
            assert ([[s[0]] + rest[0]] + rest[1..])[1..] == rest[1..];
          }
        }
        [[s[0]] + rest[0]] + rest[1..]
  }

  /** The other half of the round trip: splitting a join of separator-free pieces gives the pieces back. */
  lemma {:induction false} SplitJoin(parts: seq<string>, sep: char)
    requires |parts| >= 1
    requires forall i :: 0 <= i < |parts| ==> sep !in parts[i]
    ensures Split(Join(parts, sep), sep) == parts
    decreases |parts|, |parts[0]|
  {
    var p := parts[0];
    if p == [] {
      if |parts| > 1 {
        var tail := Join(parts[1..], sep);
        assert Join(parts, sep) == [sep] + tail;
        SplitJoin(parts[1..], sep);
        SplitCons(sep, tail, sep);
        assert [""] + parts[1..] == parts;
      }
    } else {
      var shorter := [p[1..]] + parts[1..];
      assert forall i :: 0 <= i < |shorter| ==> sep !in shorter[i] by {
        forall i | 0 <= i < |shorter| ensures sep !in shorter[i] {
          if i == 0 { assert sep !in p; assert forall c :: c in p[1..] ==> c in p; } else { assert shorter[i] == parts[i]; }
        }
      }
      SplitJoin(shorter, sep);
      JoinHead(parts, sep);
      assert p[0] != sep by { assert p[0] in p; }
      SplitCons(p[0], Join(shorter, sep), sep);
      assert [p[0]] + shorter[0] == p;
      assert shorter[1..] == parts[1..];
      assert [p] + parts[1..] == parts;
    }
  }

  /** Splitting a string that starts with `c`: one step of the recursion. */
  lemma SplitCons(c: char, t: string, sep: char)
    ensures Split([c] + t, sep) == ConsPieces(c, sep, Split(t, sep))
  {
    assert ([c] + t)[1..] == t;
  }

  /** A join whose first piece is non-empty starts with that piece's first character. */
  lemma JoinHead(parts: seq<string>, sep: char)
    requires |parts| >= 1 && parts[0] != []
    ensures Join(parts, sep) == [parts[0][0]] + Join([parts[0][1..]] + parts[1..], sep)
  {
    var shorter := [parts[0][1..]] + parts[1..];
    if |parts| > 1 {
      assert shorter[1..] == parts[1..];
    }
  }

  /** Splitting at a separator preceded by a separator-free piece yields that piece first. */
  lemma {:induction false} SplitFirst(x: string, rest: string, sep: char)
    requires sep !in x
    ensures Split(x + [sep] + rest, sep) == [x] + Split(rest, sep)
    decreases |x|
  {
    if x == [] {
      assert x + [sep] + rest == [sep] + rest;
      assert ([sep] + rest)[1..] == rest;
    } else {
      var s := x + [sep] + rest;
      assert s[0] == x[0] && s[1..] == x[1..] + [sep] + rest;
      assert sep !in x[1..] by { assert forall c :: c in x[1..] ==> c in x; }
      SplitFirst(x[1..], rest, sep);
      assert x[0] != sep by { assert x[0] in x; }
      assert [x[0]] + x[1..] == x;
    }
  }

  /**
   * Splitting a concatenation: the pieces of `a`, with the last piece of `a`
   * glued to the first piece of `b`, then the other pieces of `b`.
   */
  lemma {:induction false} SplitConcat(a: string, b: string, sep: char)
    ensures Split(a + b, sep) == Glue(Split(a, sep), Split(b, sep))
    decreases |a|
  {
    var pb := Split(b, sep);
    if a == [] {
      assert a + b == b;
      var pa := Split(a, sep);
      assert pa == [""] && pa[..0] == [];
      assert pa[0] + pb[0] == pb[0];
      assert [pb[0]] + pb[1..] == pb;
    } else {
      var c, t := a[0], a[1..];
      assert a == [c] + t;
      assert a + b == [c] + (t + b);
      SplitConcat(t, b, sep);
      SplitCons(c, t, sep);
      SplitCons(c, t + b, sep);
      GlueCons(c, sep, Split(t, sep), pb);
    }
  }

  /** The pieces of `a + b` given those of `a` and of `b`. */
  function Glue(pa: seq<string>, pb: seq<string>): (r: seq<string>)
    requires |pa| >= 1 && |pb| >= 1
    ensures |r| == |pa| + |pb| - 1
  {
    pa[..|pa| - 1] + [pa[|pa| - 1] + pb[0]] + pb[1..]
  }

  /** After a trailing separator the last piece is empty, so gluing just appends. */
  lemma GlueAfterEmpty(pa: seq<string>, pb: seq<string>)
    requires |pa| >= 1 && |pb| >= 1 && pa[|pa| - 1] == ""
    ensures Glue(pa, pb) == pa[..|pa| - 1] + pb
  {
    assert pa[|pa| - 1] + pb[0] == pb[0];
    assert [pb[0]] + pb[1..] == pb;
  }

  /** Splitting a concatenation whose first part ends in a separator: the pieces of both, less that empty piece. */
  lemma SplitAfterEmpty(a: string, b: string, sep: char)
    requires var pa := Split(a, sep); pa[|pa| - 1] == ""
    ensures var pa := Split(a, sep); Split(a + b, sep) == pa[..|pa| - 1] + Split(b, sep)
  {
    SplitConcat(a, b, sep);
    GlueAfterEmpty(Split(a, sep), Split(b, sep));
  }

  /** Appending one separator-free line and a separator to a text that ends in one. */
  lemma SplitLineAfter(prefix: string, pieces: seq<string>, line: string, sep: char)
    requires Split(prefix, sep) == pieces + [""]
    requires sep !in line
    ensures Split(prefix + (line + [sep]), sep) == pieces + [line, ""]
  {
    SplitTrailing(line, sep);
    SplitNone(line, sep);
    assert Split(line + [sep], sep) == [line, ""];
    SplitAfterEmpty(prefix, line + [sep], sep);
    assert (pieces + [""])[..|pieces|] == pieces;
  }

  /** Appending a text that starts with a separator, and a final separator, to a text that ends in one. */
  lemma SplitBlockAfter(prefix: string, pieces: seq<string>, block: string, lines: seq<string>, sep: char)
    requires |pieces| >= 1 && pieces[|pieces| - 1] == ""
    requires Split(prefix, sep) == pieces
    requires Split(block, sep) == [""] + lines
    ensures Split(prefix + (block + [sep]), sep) == pieces + lines + [""]
  {
    SplitTrailing(block, sep);
    SplitAfterEmpty(prefix, block + [sep], sep);
    ReplaceEmptyLast(pieces, lines);
  }

  /** Replacing the empty last piece by an empty piece, some lines and an empty piece. */
  lemma ReplaceEmptyLast(pieces: seq<string>, lines: seq<string>)
    requires |pieces| >= 1 && pieces[|pieces| - 1] == ""
    ensures pieces[..|pieces| - 1] + ([""] + lines + [""]) == pieces + lines + [""]
  {
    var init := pieces[..|pieces| - 1];
    assert init + [""] == pieces;
    assert init + ([""] + lines + [""]) == (init + [""]) + lines + [""];
  }

  /** A heading line, an empty line, then a text ending in one separator, split without that last empty piece. */
  lemma SplitHeadedText(h: string, body: string, pieces: seq<string>, sep: char)
    requires sep !in h
    requires Split(body + [sep], sep) == pieces + [""]
    ensures Split(h + [sep, sep] + body, sep) == [h, ""] + pieces
  {
    SplitUntrailed(body, pieces, sep);
    SplitAfterHeading(h, body, sep);
  }

  /** The piece list of one leading character, glued: what one step of the split recursion does. */
  function ConsPieces(c: char, sep: char, p: seq<string>): seq<string>
    requires |p| >= 1
  {
    if c == sep then [""] + p else [[c] + p[0]] + p[1..]
  }

  /** Gluing commutes with adding one leading character. */
  lemma GlueCons(c: char, sep: char, pt: seq<string>, pb: seq<string>)
    requires |pt| >= 1 && |pb| >= 1
    ensures ConsPieces(c, sep, Glue(pt, pb)) == Glue(ConsPieces(c, sep, pt), pb)
  {
    if c == sep {
      GlueConsSep(pt, pb);
    } else if |pt| == 1 {
      GlueConsSingle(c, pt, pb);
    } else {
      GlueConsMany(c, pt, pb);
    }
  }

  lemma GlueConsSep(pt: seq<string>, pb: seq<string>)
    requires |pt| >= 1 && |pb| >= 1
    ensures [""] + Glue(pt, pb) == Glue([""] + pt, pb)
  {
    var pa := [""] + pt;
    var k := |pt| - 1;
    assert pa[..|pa| - 1] == [""] + pt[..k];
    assert pa[|pa| - 1] == pt[k];
    var tail := [pt[k] + pb[0]] + pb[1..];
    assert Glue(pt, pb) == pt[..k] + tail;
    assert Glue(pa, pb) == ([""] + pt[..k]) + tail;
  }

  lemma GlueConsSingle(c: char, pt: seq<string>, pb: seq<string>)
    requires |pt| == 1 && |pb| >= 1
    ensures var g := Glue(pt, pb); [[c] + g[0]] + g[1..] == Glue([[c] + pt[0]] + pt[1..], pb)
  {
    var g := Glue(pt, pb);
    assert g == [pt[0] + pb[0]] + pb[1..];
    assert g[0] == pt[0] + pb[0] && g[1..] == pb[1..];
    assert [c] + (pt[0] + pb[0]) == ([c] + pt[0]) + pb[0];
    var pa := [[c] + pt[0]] + pt[1..];
    assert pa == [[c] + pt[0]];
    assert Glue(pa, pb) == [([c] + pt[0]) + pb[0]] + pb[1..];
  }

  lemma GlueConsMany(c: char, pt: seq<string>, pb: seq<string>)
    requires |pt| >= 2 && |pb| >= 1
    ensures var g := Glue(pt, pb); [[c] + g[0]] + g[1..] == Glue([[c] + pt[0]] + pt[1..], pb)
  {
    var g := Glue(pt, pb);
    var k := |pt| - 1;
    var tail := [pt[k] + pb[0]] + pb[1..];
    var pa := [[c] + pt[0]] + pt[1..];
    assert g == pt[..k] + tail;
    assert g[0] == pt[0];
    assert g[1..] == pt[1..k] + tail;
    assert pa[..|pa| - 1] == [[c] + pt[0]] + pt[1..k];
    assert pa[|pa| - 1] == pt[k];
    assert Glue(pa, pb) == ([[c] + pt[0]] + pt[1..k]) + tail;
  }

  /**
   * What the first two pieces of a split say about the string: one piece
   * exactly when the separator is absent (and then it is the whole string);
   * otherwise the string starts with piece 0, the separator and piece 1,
   * followed by nothing or by the separator.
   */
  lemma SplitFirstTwo(s: string, sep: char)
    ensures var p := Split(s, sep); (|p| == 1 <==> sep !in s) && (|p| == 1 ==> p[0] == s)
    ensures var p := Split(s, sep); |p| >= 2 ==>
      StartsWith(s, p[0] + [sep] + p[1])
      && (|s| == |p[0]| + 1 + |p[1]| || s[|p[0]| + 1 + |p[1]|] == sep)
  {
    var p := Split(s, sep);
    if |p| >= 2 {
      var prefix := p[0] + [sep] + p[1];
      if |p| == 2 {
        assert p[1..] == [p[1]];
        assert s == prefix;
      } else {
        var rest := Join(p[2..], sep);
        assert p[1..][1..] == p[2..];
        assert Join(p[1..], sep) == p[1] + [sep] + rest;
        assert s == prefix + [sep] + rest;
        assert s[|prefix|] == sep;
      }
      assert s[..|prefix|] == prefix;
      assert s[|p[0]|] == sep;
    }
  }

  /** A string without the separator is a single piece. */
  lemma SplitNone(s: string, sep: char)
    requires sep !in s
    ensures Split(s, sep) == [s]
  {
    SplitJoin([s], sep);
  }

  /** A trailing separator adds one empty piece at the end. */
  lemma SplitTrailing(s: string, sep: char)
    ensures Split(s + [sep], sep) == Split(s, sep) + [""]
  {
    SplitConcat(s, [sep], sep);
    SplitFirst([], [], sep);
    assert [] + [sep] + [] == [sep];
    var ps := Split(s, sep);
    assert Split([sep], sep) == ["", ""];
    assert ps[|ps| - 1] + "" == ps[|ps| - 1];
    assert ps[..|ps| - 1] + [ps[|ps| - 1]] == ps;
  }

  /** A heading line and a blank line in front of `body` add those two pieces in front of its pieces. */
  lemma SplitAfterHeading(h: string, body: string, sep: char)
    requires sep !in h
    ensures Split(h + [sep, sep] + body, sep) == [h, ""] + Split(body, sep)
  {
    assert h + [sep, sep] + body == h + [sep] + ([] + [sep] + body);
    SplitFirst(h, [] + [sep] + body, sep);
    SplitFirst([], body, sep);
  }

  /** The pieces of `body` are those of `body` plus a trailing separator, without the last empty one. */
  lemma SplitUntrailed(body: string, pieces: seq<string>, sep: char)
    requires Split(body + [sep], sep) == pieces + [""]
    ensures Split(body, sep) == pieces
  {
    SplitTrailing(body, sep);
    var p := Split(body, sep);
    assert |p| == |pieces|;
    assert forall i :: 0 <= i < |p| ==> p[i] == (p + [""])[i] == (pieces + [""])[i] == pieces[i];
  }

  /** `xs[i]` in JavaScript: `undefined` past the end. */
  function At(xs: seq<string>, i: nat): (r: Option<string>)
    ensures r.Some? <==> i < |xs|
  {
    if i < |xs| then Some(xs[i]) else None
  }

  // ---------------------------------------------------------------- trim

  /** The characters `String.prototype.trim` removes: WhiteSpace and LineTerminator of ECMAScript. */
  predicate IsJsSpace(c: char) {
    c == '\t' || c == '\n' || c == '\U{B}' || c == '\U{C}' || c == '\r' || c == ' '
    || c == '\U{A0}' || c == '\U{1680}' || ('\U{2000}' <= c <= '\U{200A}')
    || c == '\U{2028}' || c == '\U{2029}' || c == '\U{202F}' || c == '\U{205F}'
    || c == '\U{3000}' || c == '\U{FEFF}'
  }

  function TrimStart(s: string): (r: string)
    ensures |r| <= |s| && r == s[|s| - |r|..]
    ensures forall k :: 0 <= k < |s| - |r| ==> IsJsSpace(s[k])
    ensures r != [] ==> !IsJsSpace(r[0])
    decreases |s|
  {
    if s != [] && IsJsSpace(s[0]) then TrimStart(s[1..]) else s
  }

  function TrimEnd(s: string): (r: string)
    ensures |r| <= |s| && r == s[..|r|]
    ensures forall k :: |r| <= k < |s| ==> IsJsSpace(s[k])
    ensures r != [] ==> !IsJsSpace(r[|r| - 1])
    decreases |s|
  {
    if s != [] && IsJsSpace(s[|s| - 1]) then TrimEnd(s[..|s| - 1]) else s
  }

  /** `s.trim()`: the longest middle part that neither starts nor ends with white space. */
  function Trim(s: string): (r: string)
    ensures r != [] ==> !IsJsSpace(r[0]) && !IsJsSpace(r[|r| - 1])
  {
    TrimEnd(TrimStart(s))
  }

  /** Trimming a string that is white space, then `mid`, then white space gives `mid`. */
  lemma TrimFrame(pre: string, mid: string, post: string)
    requires forall k :: 0 <= k < |pre| ==> IsJsSpace(pre[k])
    requires forall k :: 0 <= k < |post| ==> IsJsSpace(post[k])
    requires mid != [] && !IsJsSpace(mid[0]) && !IsJsSpace(mid[|mid| - 1])
    ensures Trim(pre + mid + post) == mid
  {
    assert pre + mid + post == pre + (mid + post);
    TrimStartSkips(pre, mid + post);
    TrimEndSkips(mid, post);
  }

  /** Trimming a text that ends in one line break after a non-space character removes just that break. */
  lemma TrimLastBreak(mid: string)
    requires mid != [] && !IsJsSpace(mid[0]) && !IsJsSpace(mid[|mid| - 1])
    ensures Trim(mid + "\n") == mid
  {
    assert forall k :: 0 <= k < |"\n"| ==> IsJsSpace("\n"[k]);
    TrimFrame([], mid, "\n");
    assert [] + mid + "\n" == mid + "\n";
  }

  lemma {:induction false} TrimStartSkips(pre: string, rest: string)
    requires forall k :: 0 <= k < |pre| ==> IsJsSpace(pre[k])
    requires rest != [] && !IsJsSpace(rest[0])
    ensures TrimStart(pre + rest) == rest
    decreases |pre|
  {
    if pre != [] {
      var s := pre + rest;
      assert s[0] == pre[0] && IsJsSpace(s[0]);
      assert s[1..] == pre[1..] + rest;
      var p := pre[1..];
      assert forall k :: 0 <= k < |p| ==> IsJsSpace(p[k]) by {
        forall k | 0 <= k < |p| ensures IsJsSpace(p[k]) { assert p[k] == pre[k + 1]; }
      }
      TrimStartSkips(p, rest);
    } else {
      assert pre + rest == rest;
    }
  }

  lemma {:induction false} TrimEndSkips(rest: string, post: string)
    requires forall k :: 0 <= k < |post| ==> IsJsSpace(post[k])
    requires rest != [] && !IsJsSpace(rest[|rest| - 1])
    ensures TrimEnd(rest + post) == rest
    decreases |post|
  {
    if post != [] {
      var s := rest + post;
      assert s[|s| - 1] == post[|post| - 1];
      assert s[..|s| - 1] == rest + post[..|post| - 1];
      var p := post[..|post| - 1];
      assert forall k :: 0 <= k < |p| ==> IsJsSpace(p[k]) by {
        forall k | 0 <= k < |p| ensures IsJsSpace(p[k]) { assert p[k] == post[k]; }
      }
      TrimEndSkips(rest, p);
    } else {
      assert rest + post == rest;
    }
  }

  /** Trimming only removes characters. */
  lemma TrimKeepsOut(s: string, c: char)
    requires c !in s
    ensures c !in Trim(s)
  {
    var t := TrimStart(s);
    assert forall x :: x in t ==> x in s;
    var r := TrimEnd(t);
    assert forall x :: x in r ==> x in t;
  }

  // ---------------------------------------------------------------- case

  predicate IsUpper(c: char) { 'A' <= c <= 'Z' }

  function LowerChar(c: char): char {
    if IsUpper(c) then (c as int + 32) as char else c
  }

  function UpperChar(c: char): char {
    if 'a' <= c <= 'z' then (c as int - 32) as char else c
  }

  /** `s.toLowerCase()` on ASCII letters. */
  function ToLower(s: string): (r: string)
    ensures |r| == |s|
    ensures forall i :: 0 <= i < |s| ==> r[i] == LowerChar(s[i]) && !IsUpper(r[i])
  {
    seq(|s|, i requires 0 <= i < |s| => LowerChar(s[i]))
  }

  /** `s.toUpperCase()` on ASCII letters. */
  function ToUpper(s: string): (r: string)
    ensures |r| == |s|
    ensures forall i :: 0 <= i < |s| ==> r[i] == UpperChar(s[i]) && !('a' <= r[i] <= 'z')
  {
    seq(|s|, i requires 0 <= i < |s| => UpperChar(s[i]))
  }
}

=== FILE: reminders.dfy ===
/**
 * The event reminder poll of src/lib/whatsapp.js (processEventReminders and
 * the `sentReminders` list it shares with the 30-second timer): at most one
 * reminder per event id, recorded in an append-only list that is saved after
 * every send.
 */
module Reminders {
  import opened Wrappers
  import opened Calendar

  /** The group every event reminder goes to. */
  const ReminderGroup: string := "120363347261488236@g.us"

  /** A reminder message: where it goes, and the event title and start it announces. */
  datatype Notification = Notification(to: string, summary: string, startDate: string)

  /** `now.isAfter(start - 5 min)`, where an invalid start makes it false. */
  predicate Due(e: UpcomingEvent, parse: StartParser, now: int)
    ensures InWindow(Formatted(e), parse, now) ==> Due(e, parse, now)
    ensures Due(e, parse, now) ==> parse(e.startDate).Some?
  {
    parse(e.startDate).Some? && now > parse(e.startDate).value - LeadTime
  }

  predicate NoDuplicates(s: seq<string>) {
    forall i, j :: 0 <= i < j < |s| ==> s[i] != s[j]
  }

  /**
   * The reminder log: the in-memory `sentReminders` array and, as a ghost,
   * the list last written to sentReminders.json. They agree between ticks.
   */
  class ReminderLog {
    var sentReminders: seq<string>
    ghost var persisted: seq<string>

    ghost predicate Valid()
      reads this
    {
      persisted == sentReminders
    }

    /** The list loadSentReminders read at start-up (empty when the file is absent). */
    constructor (loaded: seq<string>)
      ensures Valid() && sentReminders == loaded
    {
      sentReminders := loaded;
      persisted := loaded;
    }

    /**
     * One tick: getEventReminder picks the event with its clock reading
     * `selectNow`; the tick reads the clock again as `now`. A reminder goes
     * out exactly when an event was picked, its id is not yet logged and it
     * is due; then the id is appended once and the list saved. Otherwise
     * nothing changes.
     */
    method Tick(events: seq<Upcoming>, parse: StartParser, selectNow: int, now: int)
      returns (sent: Option<Notification>)
      requires Valid()
      modifies this
      ensures Valid()
      ensures var r := EventReminder(events, parse, selectNow);
        sent.Some? <==> r.Some? && r.value.id !in old(sentReminders) && Due(r.value, parse, now)
      ensures sent.Some? ==>
        var e := EventReminder(events, parse, selectNow).value;
        sent.value == Notification(ReminderGroup, e.summary, e.startDate)
        && sentReminders == old(sentReminders) + [e.id]
      ensures sent.None? ==> sentReminders == old(sentReminders)
      ensures NoDuplicates(old(sentReminders)) ==> NoDuplicates(sentReminders)
    {
      var reminder := EventReminder(events, parse, selectNow);
      sent := None;
      if reminder.Some? {
        var e := reminder.value;
        var isAlreadySent := e.id in sentReminders;
        if !isAlreadySent && Due(e, parse, now) {
          sent := Some(Notification(ReminderGroup, e.summary, e.startDate));
          sentReminders := sentReminders + [e.id];
          persisted := sentReminders;
        }
      }
    }
  }

  /**
   * The second clock reading never blocks a reminder: an event picked at
   * `selectNow` starts before `selectNow + 5 min`, so it is due at any
   * `now >= selectNow`.
   */
  lemma PickedIsDue(events: seq<Upcoming>, parse: StartParser, selectNow: int, now: int)
    requires selectNow <= now
    requires EventReminder(events, parse, selectNow).Some?
    ensures Due(EventReminder(events, parse, selectNow).value, parse, now)
  {
  }

  /**
   * At most once per event: a tick that repeats the previous one (same
   * events, same clock) sends nothing, whatever the first one did.
   */
  method RepeatedTickIsSilent(log: ReminderLog, events: seq<Upcoming>, parse: StartParser, selectNow: int, now: int)
    returns (first: Option<Notification>, second: Option<Notification>)
    requires log.Valid()
    modifies log
    ensures log.Valid()
    ensures second.None?
    ensures |log.sentReminders| <= |old(log.sentReminders)| + 1
  {
    first := log.Tick(events, parse, selectNow, now);
    second := log.Tick(events, parse, selectNow, now);
  }

  /** An empty log and one event three minutes ahead: exactly one reminder, and its id is logged. */
  method FirstReminderIsSent() returns (sent: Option<Notification>, log: ReminderLog)
    ensures sent == Some(Notification(ReminderGroup, "Rapat", "3 min"))
    ensures log.sentReminders == ["E1"]
  {
    log := new ReminderLog([]);
    var parse: StartParser := s => if s == "3 min" then Some(180000) else None;
    var events := [Formatted(UpcomingEvent("E1", "Rapat", "3 min", "N/A"))];
    assert InWindow(events[0], parse, 0);
    sent := log.Tick(events, parse, 0, 0);
  }
}

=== FILE: replies.dfy ===
/**
 * The reply texts the message handler of src/lib/whatsapp.js accumulates:
 * the numbered client list of `!jadwalpost klien`, the numbered schedule of
 * `!jadwalpost <client> [last]`, and the bulleted list of `!events`. Each
 * text is proved to read back, line by line, as its items in list order.
 */
module Replies {
  import opened Wrappers
  import opened JsStrings
  import Sheets
  import Calendar
  import Router

  // ---------------------------------------------------------------- numbers and values

  function Digit(d: nat): (c: char)
    requires d < 10
    ensures '0' <= c <= '9'
  {
    ('0' as int + d) as char
  }

  /** `${n}` for a natural number: its decimal digits, with no leading zero. */
  function Decimal(n: nat): (r: string)
    ensures |r| >= 1 && forall i :: 0 <= i < |r| ==> '0' <= r[i] <= '9'
    ensures r[0] == '0' ==> n == 0
    decreases n
  {
    if n < 10 then [Digit(n)] else Decimal(n / 10) + [Digit(n % 10)]
  }

  /** The number a string of decimal digits denotes. */
  function DigitsValue(s: string): nat
    requires forall i :: 0 <= i < |s| ==> '0' <= s[i] <= '9'
  {
    if s == [] then 0 else DigitsValue(s[..|s| - 1]) * 10 + (s[|s| - 1] as int - '0' as int)
  }

  /** The digits of `n` denote `n`: list numbers are printed faithfully. */
  lemma {:induction false} DecimalValue(n: nat)
    ensures DigitsValue(Decimal(n)) == n
    decreases n
  {
    if n >= 10 {
      DecimalValue(n / 10);
      var r := Decimal(n);
      assert r[..|r| - 1] == Decimal(n / 10);
    }
  }

  lemma NoNewlineInDecimal(n: nat)
    ensures '\n' !in Decimal(n)
  {
    var d := Decimal(n);
    forall k | 0 <= k < |d| ensures d[k] != '\n' { }
  }

  /** `${v}` for a value that may be `undefined`. */
  function Shown(v: Option<string>): string {
    v.GetOr("undefined")
  }

  // ---------------------------------------------------------------- !jadwalpost klien

  const ClientListHeading: string := "*List Klien Content Planning:*"

  /** `${index + 1}. ${sheet}` */
  function ClientLine(index: nat, sheet: string): string {
    Decimal(index + 1) + ". " + sheet
  }

  /** What the `forEach` has appended after the given sheets. */
  function ClientLines(sheets: seq<string>): string {
    if sheets == [] then ""
    else ClientLines(sheets[..|sheets| - 1]) + ClientLine(|sheets| - 1, sheets[|sheets| - 1]) + "\n"
  }

  /** The client list reply: heading, blank line, one numbered line per sheet, trimmed. */
  function ClientListReply(sheetList: seq<string>): (r: string)
    ensures r != [] ==> !IsJsSpace(r[0]) && !IsJsSpace(r[|r| - 1])
  {
    Trim(ClientListHeading + "\n\n" + ClientLines(sheetList))
  }

  /** The numbered lines, one per sheet, in list order. */
  function NumberedClients(sheets: seq<string>): (r: seq<string>)
    ensures |r| == |sheets| && forall i :: 0 <= i < |sheets| ==> r[i] == ClientLine(i, sheets[i])
  {
    seq(|sheets|, i requires 0 <= i < |sheets| => ClientLine(i, sheets[i]))
  }

  /** The `forEach` over the sheet list that builds the client list reply. */
  method BuildClientList(sheetList: seq<string>) returns (text: string)
    ensures text == ClientListReply(sheetList)
  {
    var responseText := ClientListHeading + "\n\n";
    var index := 0;
    while index < |sheetList|
      invariant index <= |sheetList|
      invariant responseText == ClientListHeading + "\n\n" + ClientLines(sheetList[..index])
    {
      assert sheetList[..index + 1][..index] == sheetList[..index];
      responseText := responseText + ClientLine(index, sheetList[index]) + "\n";
      index := index + 1;
    }
    assert sheetList[..index] == sheetList;
    text := Trim(responseText);
  }

  lemma NoNewlineInClientLine(index: nat, sheet: string)
    requires '\n' !in sheet
    ensures '\n' !in ClientLine(index, sheet)
  {
    NoNewlineInDecimal(index + 1);
  }

  /** The last sheet appends its numbered line and a line break. */
  lemma ClientLinesSnoc(sheets: seq<string>)
    requires sheets != []
    ensures var n := |sheets| - 1;
      ClientLines(sheets) == ClientLines(sheets[..n]) + (ClientLine(n, sheets[n]) + ['\n'])
  {
    var n := |sheets| - 1;
    var line := ClientLine(n, sheets[n]);
    assert ClientLines(sheets) == ClientLines(sheets[..n]) + line + "\n";
    AppendAssoc(ClientLines(sheets[..n]), line, "\n");
  }

  /** The last sheet adds its numbered line. */
  lemma NumberedSnoc(sheets: seq<string>)
    requires sheets != []
    ensures var n := |sheets| - 1;
      NumberedClients(sheets) == NumberedClients(sheets[..n]) + [ClientLine(n, sheets[n])]
  {
    var n := |sheets| - 1;
    var init := sheets[..n];
    var a := NumberedClients(sheets);
    var b := NumberedClients(init) + [ClientLine(n, sheets[n])];
    forall i | 0 <= i < |a| ensures a[i] == b[i] {
      assert a[i] == ClientLine(i, sheets[i]);
      if i < n {
        assert init[i] == sheets[i];
        assert b[i] == NumberedClients(init)[i];
      } else {
        assert i == n;
      }
    }
  }

  /** The appended lines split at line breaks: the numbered lines and a last empty piece. */
  lemma {:induction false} ClientLinesSplit(sheets: seq<string>)
    requires forall i :: 0 <= i < |sheets| ==> '\n' !in sheets[i]
    ensures Split(ClientLines(sheets), '\n') == NumberedClients(sheets) + [""]
    decreases |sheets|
  {
    if sheets != [] {
      var n := |sheets| - 1;
      var init := sheets[..n];
      var line := ClientLine(n, sheets[n]);
      ClientLinesSnoc(sheets);
      NumberedSnoc(sheets);
      assert forall i :: 0 <= i < |init| ==> init[i] == sheets[i];
      ClientLinesSplit(init);
      NoNewlineInClientLine(n, sheets[n]);
      SplitLineAfter(ClientLines(init), NumberedClients(init), line, '\n');
      PiecesAssoc(NumberedClients(init), [line], [""], []);
    }
  }

  /**
   * Read line by line, the client list reply is the heading, an empty line,
   * then `1. <first sheet>`, `2. <second sheet>`, ... in list order (for
   * sheet names without line breaks, the last not ending in white space).
   */
  lemma ClientListLines(sheetList: seq<string>)
    requires |sheetList| >= 1
    requires forall i :: 0 <= i < |sheetList| ==> '\n' !in sheetList[i]
    requires var last := sheetList[|sheetList| - 1]; last != [] && !IsJsSpace(last[|last| - 1])
    ensures Split(ClientListReply(sheetList), '\n') == [ClientListHeading, ""] + NumberedClients(sheetList)
  {
    var n := |sheetList| - 1;
    var body := ClientLines(sheetList[..n]) + ClientLine(n, sheetList[n]);
    ClientListTrimmed(sheetList, body);
    ClientLinesSplit(sheetList);
    ClientListHeadingSingleLine();
    SplitHeadedText(ClientListHeading, body, NumberedClients(sheetList), '\n');
  }

  lemma ClientListHeadingSingleLine()
    ensures '\n' !in ClientListHeading
  {
    forall k | 0 <= k < |ClientListHeading| ensures ClientListHeading[k] != '\n' { }
  }

  /** The final `trim()` removes only the last line break. */
  lemma ClientListTrimmed(sheetList: seq<string>, body: string)
    requires |sheetList| >= 1
    requires var last := sheetList[|sheetList| - 1]; last != [] && !IsJsSpace(last[|last| - 1])
    requires body == ClientLines(sheetList[..|sheetList| - 1]) + ClientLine(|sheetList| - 1, sheetList[|sheetList| - 1])
    ensures ClientLines(sheetList) == body + ['\n']
    ensures ClientListReply(sheetList) == ClientListHeading + ['\n', '\n'] + body
  {
    var n := |sheetList| - 1;
    var pre := ClientListHeading + "\n\n";
    ClientLinesSnoc(sheetList);
    ClientLineEnd(n, sheetList[n]);
    LastOfAppend(pre, ClientLines(sheetList[..n]), ClientLine(n, sheetList[n]));
    AppendAssoc(pre, body, "\n");
    TrimLastBreak(pre + body);
  }

  /** A numbered line ends as its sheet name does. */
  lemma ClientLineEnd(index: nat, sheet: string)
    requires sheet != []
    ensures var l := ClientLine(index, sheet); l != [] && l[|l| - 1] == sheet[|sheet| - 1]
  {
  }

  // ---------------------------------------------------------------- !jadwalpost <client> [last]

  /** The heading line: `*JADWAL POSTINGAN TERAKHIR|MENDATANG (<CLIENT>):*`. */
  function ScheduleHeading(last: bool, sheetName: string): string {
    "*JADWAL POSTINGAN " + (if last then "TERAKHIR" else "MENDATANG") + " (" + ToUpper(sheetName) + "):*"
  }

  /**
   * The heading template before its own `trim()`: a leading line break, the
   * heading, two escaped and one literal line break, and the indentation.
   */
  function HeadingTemplate(last: bool, sheetName: string): string {
    "\n" + ScheduleHeading(last, sheetName) + "\n\n\n            "
  }

  /** `${event.status || 'Belum Ditentukan'}` */
  function StatusText(status: Option<string>): (r: string)
    ensures r != []
  {
    if Truthy(status) then status.value else "Belum Ditentukan"
  }

  /** The five lines of one entry. */
  function EntryLines(index: nat, d: Sheets.Deadline, formatDay: int -> string): seq<string> {
    [Decimal(index + 1) + ". [" + Shown(d.code) + "] - " + Shown(d.title),
     "Tanggal: " + formatDay(d.deadline),
     "Jenis: " + Shown(d.format),
     "Tipe: " + Shown(d.postType),
     "Status: " + StatusText(d.status)]
  }

  /**
   * One entry as the template writes it, up to its final escaped line break:
   * each of the five lines preceded by a line break.
   */
  function EntryBody(index: nat, d: Sheets.Deadline, formatDay: int -> string): string {
    Join([""] + EntryLines(index, d, formatDay), '\n')
  }

  /** What the `forEach` has appended after the given deadlines. */
  function Entries(ds: seq<Sheets.Deadline>, formatDay: int -> string): string {
    if ds == [] then ""
    else Entries(ds[..|ds| - 1], formatDay) + EntryBody(|ds| - 1, ds[|ds| - 1], formatDay) + "\n"
  }

  /** The schedule reply: the trimmed heading followed by the entries, trimmed again. */
  function ScheduleText(last: bool, sheetName: string, ds: seq<Sheets.Deadline>, formatDay: int -> string): (r: string)
    ensures r != [] ==> !IsJsSpace(r[0]) && !IsJsSpace(r[|r| - 1])
  {
    Trim(Trim(HeadingTemplate(last, sheetName)) + Entries(ds, formatDay))
  }

  /** The `forEach` over the ranked deadlines that builds the schedule reply. */
  method BuildSchedule(last: bool, sheetName: string, deadlines: seq<Sheets.Deadline>, formatDay: int -> string)
    returns (text: string)
    ensures text == ScheduleText(last, sheetName, deadlines, formatDay)
  {
    var heading := Trim(HeadingTemplate(last, sheetName));
    var responseText := heading;
    var index := 0;
    while index < |deadlines|
      invariant index <= |deadlines|
      invariant responseText == heading + Entries(deadlines[..index], formatDay)
    {
      var entry := EntryBody(index, deadlines[index], formatDay);
      EntriesStep(deadlines, index, formatDay);
      AppendAssoc(heading, Entries(deadlines[..index], formatDay), entry + "\n");
      responseText := responseText + (entry + "\n");
      index := index + 1;
    }
    assert deadlines[..index] == deadlines;
    text := Trim(responseText);
  }

  /** The lines of the entries: five per deadline, each group followed by an empty line. */
  function Blocks(ds: seq<Sheets.Deadline>, formatDay: int -> string): (r: seq<string>)
    ensures |r| == 6 * |ds|
    ensures ds != [] ==> r[|r| - 1] == ""
  {
    if ds == [] then []
    else Blocks(ds[..|ds| - 1], formatDay) + EntryLines(|ds| - 1, ds[|ds| - 1], formatDay) + [""]
  }

  /** No field of the entry holds a line break. */
  predicate SingleLines(index: nat, d: Sheets.Deadline, formatDay: int -> string) {
    forall k :: 0 <= k < 5 ==> '\n' !in EntryLines(index, d, formatDay)[k]
  }

  /** The trimmed heading template is the heading line. */
  lemma HeadingTrimmed(last: bool, sheetName: string)
    ensures Trim(HeadingTemplate(last, sheetName)) == ScheduleHeading(last, sheetName)
  {
    var h := ScheduleHeading(last, sheetName);
    var post := "\n\n\n            ";
    assert forall k :: 0 <= k < |post| ==> IsJsSpace(post[k]);
    assert h[0] == '*' && h[|h| - 1] == '*';
    TrimFrame("\n", h, post);
  }

  lemma NoNewlineInHeading(last: bool, sheetName: string)
    requires '\n' !in sheetName
    ensures '\n' !in ScheduleHeading(last, sheetName)
  {
    var u := ToUpper(sheetName);
    forall k | 0 <= k < |u| ensures u[k] != '\n' {
      assert sheetName[k] != '\n';
    }
  }

  /** One entry splits into an empty piece and its five lines. */
  lemma EntrySplit(index: nat, d: Sheets.Deadline, formatDay: int -> string)
    requires SingleLines(index, d, formatDay)
    ensures Split(EntryBody(index, d, formatDay), '\n') == [""] + EntryLines(index, d, formatDay)
  {
    var l := [""] + EntryLines(index, d, formatDay);
    assert forall k :: 0 <= k < |l| ==> '\n' !in l[k] by {
      forall k | 0 <= k < |l| ensures '\n' !in l[k] {
        if k > 0 { assert l[k] == EntryLines(index, d, formatDay)[k - 1]; }
      }
    }
    SplitJoin(l, '\n');
  }

  /** The last character of an entry is the last character of its status. */
  lemma EntryEnd(index: nat, d: Sheets.Deadline, formatDay: int -> string)
    ensures var e := EntryBody(index, d, formatDay); var st := StatusText(d.status);
      e != [] && e[|e| - 1] == st[|st| - 1]
  {
    var l := [""] + EntryLines(index, d, formatDay);
    JoinLast(l, '\n');
  }

  /** A join ends with its last piece. */
  lemma {:induction false} JoinLast(parts: seq<string>, sep: char)
    requires |parts| >= 1 && parts[|parts| - 1] != []
    ensures var j := Join(parts, sep); var p := parts[|parts| - 1];
      j != [] && j[|j| - 1] == p[|p| - 1]
    decreases |parts|
  {
    if |parts| > 1 {
      JoinLast(parts[1..], sep);
    }
  }

  /**
   * Associativity of `+`, stated apart: asserted inline, in contexts that
   * hold several string literals and Entries terms, the same fact sends
   * BuildSchedule, EntriesSplit and EntriesSnoc past the solver's resource
   * limit, while a call to this lemma hands over the one instance needed.
   */
  lemma AppendAssoc(a: string, b: string, c: string)
    ensures (a + b) + c == a + (b + c)
  {
  }

  /** The loop step: one more deadline appends its entry and a line break. */
  lemma EntriesStep(ds: seq<Sheets.Deadline>, index: nat, formatDay: int -> string)
    requires index < |ds|
    ensures Entries(ds[..index + 1], formatDay) == Entries(ds[..index], formatDay) + (EntryBody(index, ds[index], formatDay) + "\n")
  {
    assert ds[..index + 1][..index] == ds[..index];
  }

  /** The last deadline appends its entry and a line break, and its five lines and an empty one. */
  lemma EntriesSnoc(ds: seq<Sheets.Deadline>, formatDay: int -> string)
    requires ds != []
    ensures var n := |ds| - 1;
      Entries(ds, formatDay) == Entries(ds[..n], formatDay) + (EntryBody(n, ds[n], formatDay) + "\n")
    ensures var n := |ds| - 1;
      Blocks(ds, formatDay) == Blocks(ds[..n], formatDay) + EntryLines(n, ds[n], formatDay) + [""]
  {
    var n := |ds| - 1;
    var init := ds[..n];
    var entry := EntryBody(n, ds[n], formatDay);
    assert Entries(ds, formatDay) == Entries(init, formatDay) + entry + "\n";
    AppendAssoc(Entries(init, formatDay), entry, "\n");
  }

  /** The same regrouping for lists of lines, kept apart for the same reason as AppendAssoc. */
  lemma PiecesAssoc(a: seq<string>, b: seq<string>, c: seq<string>, d: seq<string>)
    ensures (a + b) + c + d == a + (b + c + d)
  {
  }

  /** All entries split into an empty first piece and then the blocks. */
  lemma {:induction false} EntriesSplit(ds: seq<Sheets.Deadline>, formatDay: int -> string)
    requires forall i :: 0 <= i < |ds| ==> SingleLines(i, ds[i], formatDay)
    ensures Split(Entries(ds, formatDay), '\n') == [""] + Blocks(ds, formatDay)
    decreases |ds|
  {
    if ds != [] {
      var n := |ds| - 1;
      var init := ds[..n];
      var body := EntryBody(n, ds[n], formatDay);
      var el := EntryLines(n, ds[n], formatDay);
      EntriesSnoc(ds, formatDay);
      assert forall i :: 0 <= i < |init| ==> init[i] == ds[i];
      EntriesSplit(init, formatDay);
      EntrySplit(n, ds[n], formatDay);
      SplitBlockAfter(Entries(init, formatDay), [""] + Blocks(init, formatDay), body, el, '\n');
      PiecesAssoc([""], Blocks(init, formatDay), el, [""]);
    }
  }

  /**
   * Read line by line, the schedule reply is the heading line, then for each
   * ranked deadline in order its five lines (number, code and title; date;
   * format; type; status), with an empty line between entries, for fields
   * without line breaks and a last status not ending in white space.
   */
  lemma ScheduleLines(last: bool, sheetName: string, ds: seq<Sheets.Deadline>, formatDay: int -> string)
    requires |ds| >= 1 && '\n' !in sheetName
    requires forall i :: 0 <= i < |ds| ==> SingleLines(i, ds[i], formatDay)
    requires var st := StatusText(ds[|ds| - 1].status); !IsJsSpace(st[|st| - 1])
    ensures var b := Blocks(ds, formatDay);
      Split(ScheduleText(last, sheetName, ds, formatDay), '\n') == [ScheduleHeading(last, sheetName)] + b[..|b| - 1]
  {
    var h := ScheduleHeading(last, sheetName);
    var n := |ds| - 1;
    var body := Entries(ds[..n], formatDay) + EntryBody(n, ds[n], formatDay);
    ScheduleTrimmed(last, sheetName, ds, formatDay, body);
    EntriesSplit(ds, formatDay);
    var b := Blocks(ds, formatDay);
    var lines := [""] + b[..|b| - 1];
    DropLastEmpty(b);
    assert Split(body + ['\n'], '\n') == lines + [""];
    SplitUntrailed(body, lines, '\n');
    NoNewlineInHeading(last, sheetName);
    SplitNone(h, '\n');
    SplitConcat(h, body, '\n');
    GlueSingle(h, b[..|b| - 1]);
  }

  /** A list ending in an empty piece, behind a leading empty piece. */
  lemma DropLastEmpty(b: seq<string>)
    requires |b| >= 1 && b[|b| - 1] == ""
    ensures [""] + b == ([""] + b[..|b| - 1]) + [""]
  {
    assert b == b[..|b| - 1] + [""];
  }

  /** A single piece glued to a list that starts empty. */
  lemma GlueSingle(h: string, q: seq<string>)
    ensures Glue([h], [""] + q) == [h] + q
  {
    assert h + "" == h;
    assert ([""] + q)[1..] == q;
  }

  /** The final `trim()` removes only the last line break. */
  lemma ScheduleTrimmed(last: bool, sheetName: string, ds: seq<Sheets.Deadline>, formatDay: int -> string, body: string)
    requires |ds| >= 1
    requires var st := StatusText(ds[|ds| - 1].status); !IsJsSpace(st[|st| - 1])
    requires body == Entries(ds[..|ds| - 1], formatDay) + EntryBody(|ds| - 1, ds[|ds| - 1], formatDay)
    ensures Entries(ds, formatDay) == body + ['\n']
    ensures ScheduleText(last, sheetName, ds, formatDay) == ScheduleHeading(last, sheetName) + body
  {
    var h := ScheduleHeading(last, sheetName);
    HeadingTrimmed(last, sheetName);
    var n := |ds| - 1;
    EntriesSnoc(ds, formatDay);
    AppendAssoc(Entries(ds[..n], formatDay), EntryBody(n, ds[n], formatDay), "\n");
    EntryEnd(n, ds[n], formatDay);
    LastOfAppend(h, Entries(ds[..n], formatDay), EntryBody(n, ds[n], formatDay));
    AppendAssoc(h, body, "\n");
    TrimLastBreak(h + body);
  }

  /** A concatenation that ends in a non-empty part ends as that part does. */
  lemma LastOfAppend(h: string, a: string, e: string)
    requires h != [] && e != []
    ensures var m := h + (a + e); m[0] == h[0] && m[|m| - 1] == e[|e| - 1]
  {
  }

  // ---------------------------------------------------------------- !events

  const EventsHeading: string := "*UPCOMING EVENTS:*"

  /** `• ${summary} - ${startDate} - ${endDate}`, with the bullet as the source spells it. */
  function BulletLine(l: Router.EventLine): string {
    Calendar.Bullet + " " + l.summary + " - " + l.startDate + " - " + l.endDate
  }

  function BulletLines(lines: seq<Router.EventLine>): (r: seq<string>)
    ensures |r| == |lines| && forall i :: 0 <= i < |lines| ==> r[i] == BulletLine(lines[i])
  {
    seq(|lines|, i requires 0 <= i < |lines| => BulletLine(lines[i]))
  }

  /** `*UPCOMING EVENTS:*\n\n${eventList}`, the list being the lines joined with '\n'. */
  function EventListText(lines: seq<Router.EventLine>): (r: string)
    ensures StartsWith(r, EventsHeading + "\n\n")
  {
    var r := EventsHeading + "\n\n" + Join(BulletLines(lines), '\n');
    assert r[..|EventsHeading| + 2] == EventsHeading + "\n\n";
    r
  }

  lemma EventsHeadingSingleLine()
    ensures '\n' !in EventsHeading
  {
    forall k | 0 <= k < |EventsHeading| ensures EventsHeading[k] != '\n' { }
  }

  /**
   * Read line by line, the event list is the heading, an empty line, then one
   * bulleted line per event in order (an empty list leaves one empty line).
   */
  lemma EventListLines(lines: seq<Router.EventLine>)
    requires forall i :: 0 <= i < |lines| ==> '\n' !in BulletLine(lines[i])
    ensures Split(EventListText(lines), '\n') ==
      [EventsHeading, ""] + (if lines == [] then [""] else BulletLines(lines))
  {
    var j := Join(BulletLines(lines), '\n');
    EventsHeadingSingleLine();
    SplitAfterHeading(EventsHeading, j, '\n');
    if lines != [] {
      SplitJoin(BulletLines(lines), '\n');
    }
  }
}

=== FILE: router.dfy ===
/**
 * The `client.on('message')` handler of src/lib/whatsapp.js and the
 * tag-all message it builds. Route gives, for one incoming message, the
 * ordered list of actions the handler takes; the replies that depend on
 * fetched data (events, sheet list, sheet rows) are the functions after it.
 */
module Router {
  import opened Wrappers
  import opened JsStrings
  import Sheets
  import Calendar

  /** The fields of an incoming message the handler reads. */
  datatype Message = Message(body: string, from: string, author: Option<string>)

  /** The groups in which `!all` may be used. */
  const AllowedGroupIds: seq<string> :=
    ["120363347261488236@g.us", "120363346334583188@g.us", "120363334935442748@g.us"]

  /** The users `!all` mentions. */
  const AllowedUserIds: seq<string> :=
    ["6281295309233@c.us", "6281392505769@c.us", "6287777951101@c.us", "6282246408705@c.us", "6281513041151@c.us"]

  // ---------------------------------------------------------------- sendTagAllMessage

  /** `userId.split('@')[0]` */
  function Phone(id: string): (p: string)
    ensures '@' !in p
  {
    Split(id, '@')[0]
  }

  /** `'@' + phone + ' '` */
  function TagPiece(id: string): string {
    "@" + Phone(id) + " "
  }

  /** `phone + '@c.us'` */
  function MentionOf(id: string): string {
    Phone(id) + "@c.us"
  }

  /** The text the `forEach` accumulates: one tag piece per id, in order. */
  function TagText(ids: seq<string>): string {
    if ids == [] then "" else TagText(ids[..|ids| - 1]) + TagPiece(ids[|ids| - 1])
  }

  /** The mention list the `forEach` accumulates: one mention per id, in order. */
  function Mentions(ids: seq<string>): (r: seq<string>)
    ensures |r| == |ids|
    ensures forall i :: 0 <= i < |ids| ==> r[i] == MentionOf(ids[i])
  {
    if ids == [] then [] else Mentions(ids[..|ids| - 1]) + [MentionOf(ids[|ids| - 1])]
  }

  /** The text of a concatenation of id lists is the concatenation of their texts. */
  lemma {:induction false} TagTextAppend(a: seq<string>, b: seq<string>)
    ensures TagText(a + b) == TagText(a) + TagText(b)
    decreases |b|
  {
    if b == [] {
      assert a + b == a;
    } else {
      var b' := b[..|b| - 1];
      var ab := a + b;
      assert ab[..|ab| - 1] == a + b';
      assert ab[|ab| - 1] == b[|b| - 1];
      assert TagText(ab) == TagText(a + b') + TagPiece(b[|b| - 1]);
      TagTextAppend(a, b');
      assert TagText(b) == TagText(b') + TagPiece(b[|b| - 1]);
    }
  }

  /** The `@phone` tokens the tag text is made of. */
  function AtTokens(ids: seq<string>): (r: seq<string>)
    ensures |r| == |ids| && forall i :: 0 <= i < |ids| ==> r[i] == "@" + Phone(ids[i])
  {
    seq(|ids|, i requires 0 <= i < |ids| => "@" + Phone(ids[i]))
  }

  lemma TagTextCons(id: string, rest: seq<string>)
    ensures TagText([id] + rest) == "@" + Phone(id) + [' '] + TagText(rest)
  {
    TagTextAppend([id], rest);
    assert [id][..0] == [];
    assert TagText([id]) == TagPiece(id);
  }

  /**
   * Read back by splitting on spaces, the tag text gives the `@phone` tokens
   * in id order and a final empty piece (the text ends with a space), as long
   * as no phone part contains a space.
   */
  lemma {:induction false} TagTextTokens(ids: seq<string>)
    requires forall i :: 0 <= i < |ids| ==> ' ' !in Phone(ids[i])
    ensures Split(TagText(ids), ' ') == AtTokens(ids) + [""]
    decreases |ids|
  {
    if ids != [] {
      var rest := ids[1..];
      assert ids == [ids[0]] + rest;
      var tok := "@" + Phone(ids[0]);
      NoSpaceInToken(ids[0]);
      forall i | 0 <= i < |rest| ensures ' ' !in Phone(rest[i]) {
        assert rest[i] == ids[i + 1];
      }
      TagTextTokens(rest);
      calc {
        Split(TagText(ids), ' ');
        { TagTextCons(ids[0], rest); }
        Split(tok + [' '] + TagText(rest), ' ');
        { SplitFirst(tok, TagText(rest), ' '); }
        [tok] + Split(TagText(rest), ' ');
        [tok] + (AtTokens(rest) + [""]);
        { AtTokensCons(ids); }
        AtTokens(ids) + [""];
      }
    }
  }

  lemma AtTokensCons(ids: seq<string>)
    requires ids != []
    ensures AtTokens(ids) == ["@" + Phone(ids[0])] + AtTokens(ids[1..])
  {
  }

  lemma NoSpaceInToken(id: string)
    requires ' ' !in Phone(id)
    ensures ' ' !in "@" + Phone(id)
  {
    assert "@" + Phone(id) == ['@'] + Phone(id);
  }

  /** An id already of the form `phone@c.us` is mentioned as itself. */
  lemma MentionOfCanonical(phone: string)
    requires '@' !in phone
    ensures MentionOf(phone + "@c.us") == phone + "@c.us"
  {
    SplitFirst(phone, "c.us", '@');
    assert phone + "@c.us" == phone + ['@'] + "c.us";
  }

  /**
   * sendTagAllMessage's loop: builds the text and the mention list that are
   * then sent to the chat.
   */
  method BuildTagAll(ids: seq<string>) returns (text: string, mentions: seq<string>)
    ensures text == TagText(ids)
    ensures mentions == Mentions(ids)
  {
    text := "";
    mentions := [];
    var i := 0;
    while i < |ids|
      invariant 0 <= i <= |ids|
      invariant text == TagText(ids[..i])
      invariant mentions == Mentions(ids[..i])
    {
      var userPhone := Split(ids[i], '@')[0];
      text := text + "@" + userPhone + " ";
      mentions := mentions + [userPhone + "@c.us"];
      assert ids[..i + 1][..i] == ids[..i];
      i := i + 1;
    }
    assert ids[..i] == ids;
  }

  // ---------------------------------------------------------------- routing

  /** What the handler does for a message; each is one reply or one call into the other modules. */
  datatype Action =
    | ShowHelp                                      // showHelp
    | DenyTagAll                                    // `!all` in a group not on the allow-list
    | TagAll(text: string, mentions: seq<string>)   // sendTagAllMessage
    | ShowGroupId(group: string)                    // `Group ID: ...`
    | ShowUserIds(fallback: string)                 // mentioned users, or `Your User ID: author || from`
    | OnlyInGroups                                  // `This command works only in groups!`
    | ShowOwnUserId(user: string)                   // `Your User ID: from` in a private chat
    | SendSticker(name: string)                     // sendSticker
    | SearchEvents(query: string)                   // the `!events` flow (EventsReplyOf)
    | JadwalpostGuide                               // the `!jadwalpost` guide text
    | ListClients                                   // the client list flow (ClientsReplyOf)
    | ClientSchedule(sheetName: Option<string>, option: Option<string>)  // ClientScheduleReply
    | ScheduleUsage                                 // `!jadwalkan` usage text
    | ScheduleEvent(sheet: string, code: string, date: string, startTime: string, endTime: Option<string>)
                                                    // addEventToCalendar (Calendar.NewEventRequest)
    | DetailUsage                                   // `!detail` usage text
    | ShowDetail(sheet: string, code: string, lookupCode: string)  // DetailReplyOf

  /** `msg.from.includes('@g.us')` */
  predicate IsGroup(from: string) {
    Includes(from, "@g.us")
  }

  /** The `if/else` on the chat kind, for a message that was not refused. */
  function OriginActions(m: Message): (r: seq<Action>)
    ensures |r| <= 1
    ensures r != [] ==> OriginFamily(m.body)
  {
    assert m.body == "!all" ==> !StartsWith(m.body, "!userid");
    if IsGroup(m.from) then
      (if m.body == "!all" then [TagAll(TagText(AllowedUserIds), Mentions(AllowedUserIds))] else [])
      + (if m.body == "!groupid" then [ShowGroupId(m.from)]
         else if StartsWith(m.body, "!userid") then
           [ShowUserIds(if Truthy(m.author) then m.author.value else m.from)]
         else [])
    else if m.body == "!groupid" || m.body == "!all" then [OnlyInGroups]
    else if m.body == "!userid" then [ShowOwnUserId(m.from)]
    else []
  }

  /** `stickerCommands[msg.body]` for the object's own keys. */
  function StickerActions(body: string): (r: seq<Action>)
    ensures |r| <= 1
    ensures r != [] <==> StickerFamily(body)
    ensures r != [] ==> r[0].SendSticker? && body == "!" + r[0].name
  {
    if body == "!dea" then [SendSticker("dea")]
    else if body == "!dimas" then [SendSticker("dimas")]
    else if body == "!ananta" then [SendSticker("ananta")]
    else []
  }

  /** `msg.body.slice(8).trim()` */
  function EventsQuery(body: string): (q: string)
    ensures q != [] ==> !IsJsSpace(q[0]) && !IsJsSpace(q[|q| - 1])
    ensures |body| <= 8 ==> q == []
  {
    Trim(SliceFrom(body, 8))
  }

  function EventsActions(body: string): seq<Action> {
    if StartsWith(body, "!events") then [SearchEvents(EventsQuery(body))] else []
  }

  function LowerOpt(v: Option<string>): Option<string> {
    match v
    case Some(s) => Some(ToLower(s))
    case None => None
  }

  function TrimOpt(v: Option<string>): Option<string> {
    match v
    case Some(s) => Some(Trim(s))
    case None => None
  }

  /** The `!jadwalpost` chain: guide, else client list, else one client's schedule. */
  function JadwalpostActions(body: string): (r: seq<Action>)
    ensures |r| <= 1
    ensures r != [] <==> JadwalpostFamily(body)
  {
    var lower := ToLower(body);
    if lower == "!jadwalpost" then [JadwalpostGuide]
    else if StartsWith(lower, "!jadwalpost klien") then [ListClients]
    else if StartsWith(lower, "!jadwalpost") then
      var parts := Split(body, ' ');
      [ClientSchedule(LowerOpt(At(parts, 1)), LowerOpt(At(parts, 2)))]
    else []
  }

  /** The four trimmed arguments of `!jadwalkan`. */
  function JadwalkanArgs(body: string): (Option<string>, Option<string>, Option<string>, Option<string>) {
    var parts := Split(body, ' ');
    (TrimOpt(At(parts, 1)), TrimOpt(At(parts, 2)), TrimOpt(At(parts, 3)), TrimOpt(At(parts, 4)))
  }

  predicate JadwalkanComplete(body: string) {
    var (sheet, code, date, time) := JadwalkanArgs(body);
    Truthy(sheet) && Truthy(code) && Truthy(date) && Truthy(time)
  }

  /**
   * `const [startTime, endTime] = time.split('-')`: the start is the text up
   * to the first '-' (all of it when there is none), the end the text
   * between the first and a second '-', absent when there is no '-'.
   */
  function SplitTime(t: string): (r: (string, Option<string>))
    ensures '-' !in r.0 && (r.1.Some? ==> '-' !in r.1.value)
    ensures r.1.None? <==> '-' !in t
    ensures r.1.None? ==> r.0 == t
    ensures r.1.Some? ==> StartsWith(t, r.0 + "-" + r.1.value)
                          && (|t| == |r.0| + 1 + |r.1.value| || t[|r.0| + 1 + |r.1.value|] == '-')
  {
    var times := Split(t, '-');
    SplitFirstTwo(t, '-');
    (times[0], At(times, 1))
  }

  /** `!jadwalkan` with all four arguments: the time is split at '-' into start and end. */
  function ScheduleOf(body: string): (a: Action)
    requires JadwalkanComplete(body)
    ensures a.ScheduleEvent?
    ensures var (sheet, code, date, time) := JadwalkanArgs(body);
      Some(a.sheet) == sheet && Some(a.code) == code && Some(a.date) == date
      && (a.startTime, a.endTime) == SplitTime(time.value)
  {
    var (sheet, code, date, time) := JadwalkanArgs(body);
    var (startTime, endTime) := SplitTime(time.value);
    ScheduleEvent(sheet.value, code.value, date.value, startTime, endTime)
  }

  function DetailArgs(body: string): (Option<string>, Option<string>) {
    var parts := Split(body, ' ');
    (TrimOpt(At(parts, 1)), TrimOpt(At(parts, 2)))
  }

  /** `!detail ` with a sheet and a code: the code is looked up upper-cased. */
  function DetailActions(body: string): (r: seq<Action>)
    ensures |r| <= 1
    ensures r != [] <==> DetailFamily(body)
  {
    if StartsWith(body, "!detail ") then
      var (sheet, code) := DetailArgs(body);
      if Truthy(sheet) && Truthy(code) then [ShowDetail(sheet.value, code.value, ToUpper(code.value))]
      else [DetailUsage]
    else []
  }

  /**
   * The handler, in source order. Two early returns decide what follows:
   * `!all` from a group off the allow-list stops everything after it, and
   * `!jadwalkan` usage stops the `!detail` check. (The return after an
   * unknown client in `!jadwalpost` is inside that flow; nothing later
   * could match such a message anyway, see FamiliesDisjoint.)
   */
  function Route(m: Message): (r: seq<Action>)
    ensures |r| <= 1
  {
    FamiliesDisjoint(m.body);
    var help := if m.body == "!help" then [ShowHelp] else [];
    if IsGroup(m.from) && m.body == "!all" && m.from !in AllowedGroupIds then
      help + [DenyTagAll]
    else
      var before := help + OriginActions(m) + StickerActions(m.body) + EventsActions(m.body)
                    + JadwalpostActions(m.body);
      if StartsWith(m.body, "!jadwalkan") then
        if JadwalkanComplete(m.body) then before + [ScheduleOf(m.body)] + DetailActions(m.body)
        else before + [ScheduleUsage]
      else before + DetailActions(m.body)
  }

  // ---------------------------------------------------------------- routing properties

  /** The characters a message must have at fixed positions to enter each prefix-matched family. */
  lemma FamilyChars(body: string)
    ensures StartsWith(body, "!events") ==> body[1] == 'e'
    ensures StartsWith(body, "!userid") ==> body[1] == 'u'
    ensures StartsWith(body, "!jadwalkan") ==> body[1] == 'j' && body[7] == 'k'
    ensures StartsWith(body, "!detail ") ==> body[1] == 'd' && body[3] == 't' && |body| >= 8
    ensures StartsWith(ToLower(body), "!jadwalpost") ==>
              |body| >= 11 && LowerChar(body[1]) == 'j' && LowerChar(body[7]) == 'p'
  {
    if StartsWith(body, "!events") { StartsWithAt(body, "!events", 1); }
    if StartsWith(body, "!userid") { StartsWithAt(body, "!userid", 1); }
    if StartsWith(body, "!jadwalkan") { StartsWithAt(body, "!jadwalkan", 1); StartsWithAt(body, "!jadwalkan", 7); }
    if StartsWith(body, "!detail ") { StartsWithAt(body, "!detail ", 1); StartsWithAt(body, "!detail ", 3); }
    if StartsWith(ToLower(body), "!jadwalpost") {
      var lower := ToLower(body);
      StartsWithAt(lower, "!jadwalpost", 1);
      StartsWithAt(lower, "!jadwalpost", 7);
      assert lower[1] == LowerChar(body[1]) && lower[7] == LowerChar(body[7]);
    }
  }

  /** The messages each handler reacts to. */
  predicate HelpFamily(body: string) { body == "!help" }
  predicate OriginFamily(body: string) { body == "!all" || body == "!groupid" || StartsWith(body, "!userid") }
  predicate StickerFamily(body: string) { body == "!dea" || body == "!dimas" || body == "!ananta" }
  predicate EventsFamily(body: string) { StartsWith(body, "!events") }
  predicate JadwalpostFamily(body: string) { StartsWith(ToLower(body), "!jadwalpost") }
  predicate JadwalkanFamily(body: string) { StartsWith(body, "!jadwalkan") }
  predicate DetailFamily(body: string) { StartsWith(body, "!detail ") }

  /** No message belongs to two families. */
  lemma FamiliesDisjoint(body: string)
    ensures HelpFamily(body) ==> !OriginFamily(body) && !StickerFamily(body) && !EventsFamily(body)
                                 && !JadwalpostFamily(body) && !JadwalkanFamily(body) && !DetailFamily(body)
    ensures OriginFamily(body) ==> !StickerFamily(body) && !EventsFamily(body)
                                   && !JadwalpostFamily(body) && !JadwalkanFamily(body) && !DetailFamily(body)
    ensures StickerFamily(body) ==> !EventsFamily(body) && !JadwalpostFamily(body)
                                    && !JadwalkanFamily(body) && !DetailFamily(body)
    ensures EventsFamily(body) ==> !JadwalpostFamily(body) && !JadwalkanFamily(body) && !DetailFamily(body)
    ensures JadwalpostFamily(body) ==> !JadwalkanFamily(body) && !DetailFamily(body)
    ensures JadwalkanFamily(body) ==> !DetailFamily(body)
  {
    FamilyChars(body);
  }

  lemma OriginQuiet(m: Message)
    ensures |OriginActions(m)| <= 1
    ensures !OriginFamily(m.body) ==> OriginActions(m) == []
  {
    if m.body == "!all" { assert !StartsWith(m.body, "!userid"); }
  }

  lemma StickerQuiet(body: string)
    ensures |StickerActions(body)| <= 1
    ensures !StickerFamily(body) ==> StickerActions(body) == []
  {
  }

  lemma EventsQuiet(body: string)
    ensures |EventsActions(body)| <= 1
    ensures !EventsFamily(body) ==> EventsActions(body) == []
  {
  }

  lemma JadwalpostQuiet(body: string)
    ensures |JadwalpostActions(body)| <= 1
    ensures !JadwalpostFamily(body) ==> JadwalpostActions(body) == []
  {
  }

  lemma DetailQuiet(body: string)
    ensures |DetailActions(body)| <= 1
    ensures !DetailFamily(body) ==> DetailActions(body) == []
  {
  }

  /** Route, with every handler outside the message's family shown silent. */
  lemma Quiet(m: Message)
    ensures |OriginActions(m)| <= 1 && (!OriginFamily(m.body) ==> OriginActions(m) == [])
    ensures |StickerActions(m.body)| <= 1 && (!StickerFamily(m.body) ==> StickerActions(m.body) == [])
    ensures |EventsActions(m.body)| <= 1 && (!EventsFamily(m.body) ==> EventsActions(m.body) == [])
    ensures |JadwalpostActions(m.body)| <= 1 && (!JadwalpostFamily(m.body) ==> JadwalpostActions(m.body) == [])
    ensures |DetailActions(m.body)| <= 1 && (!DetailFamily(m.body) ==> DetailActions(m.body) == [])
  {
    OriginQuiet(m);
    StickerQuiet(m.body);
    EventsQuiet(m.body);
    JadwalpostQuiet(m.body);
    DetailQuiet(m.body);
  }

  /** `!all` from a group off the allow-list: only the refusal, and nothing after it runs. */
  lemma RefusedTagAllStops(m: Message)
    requires IsGroup(m.from) && m.from !in AllowedGroupIds && m.body == "!all"
    ensures Route(m) == [DenyTagAll]
  {
    FamiliesDisjoint(m.body);
    Quiet(m);
  }

  /** `!all` from an allowed group: the tag-all message mentioning every allowed user, and nothing else. */
  lemma AllowedTagAll(m: Message)
    requires IsGroup(m.from) && m.from in AllowedGroupIds && m.body == "!all"
    ensures Route(m) == [TagAll(TagText(AllowedUserIds), Mentions(AllowedUserIds))]
  {
    FamiliesDisjoint(m.body);
    Quiet(m);
  }

  /** The ids `!all` mentions are already `phone@c.us`, so the mentions are the ids themselves. */
  lemma AllowedMentionsAreIds()
    ensures Mentions(AllowedUserIds) == AllowedUserIds
  {
    var phones := ["6281295309233", "6281392505769", "6287777951101", "6282246408705", "6281513041151"];
    forall i | 0 <= i < 5 ensures MentionOf(AllowedUserIds[i]) == AllowedUserIds[i] {
      CanonicalUser(phones[i], AllowedUserIds[i]);
    }
    MentionsFixed(AllowedUserIds);
  }

  /** A list of ids each of which is its own mention is its own mention list. */
  lemma MentionsFixed(ids: seq<string>)
    requires forall i :: 0 <= i < |ids| ==> MentionOf(ids[i]) == ids[i]
    ensures Mentions(ids) == ids
  {
  }

  /** A `phone@c.us` id with a digits-only phone is its own mention. */
  lemma CanonicalUser(phone: string, id: string)
    requires forall k :: 0 <= k < |phone| ==> '0' <= phone[k] <= '9'
    requires id == phone + "@c.us"
    ensures MentionOf(id) == id
  {
    MentionOfCanonical(phone);
  }

  /** `!help` gets the help text and nothing else. */
  lemma HelpRoute(m: Message)
    requires m.body == "!help"
    ensures Route(m) == [ShowHelp]
  {
    FamiliesDisjoint(m.body);
    Quiet(m);
  }

  /** `!groupid` in a group gets the group's id and nothing else. */
  lemma GroupIdRoute(m: Message)
    requires IsGroup(m.from) && m.body == "!groupid"
    ensures Route(m) == [ShowGroupId(m.from)]
  {
    FamiliesDisjoint(m.body);
    Quiet(m);
  }

  /** `!userid...` in a group gets the user ids, falling back to `author || from`, and nothing else. */
  lemma UserIdInGroupRoute(m: Message)
    requires IsGroup(m.from) && StartsWith(m.body, "!userid")
    ensures Route(m) == [ShowUserIds(if Truthy(m.author) then m.author.value else m.from)]
  {
    FamiliesDisjoint(m.body);
    Quiet(m);
  }

  /** `!userid` in a private chat gets the sender's own id and nothing else. */
  lemma UserIdPrivateRoute(m: Message)
    requires !IsGroup(m.from) && m.body == "!userid"
    ensures Route(m) == [ShowOwnUserId(m.from)]
  {
    FamiliesDisjoint(m.body);
    Quiet(m);
  }

  /** A sticker command sends its sticker and does nothing else, in any chat. */
  lemma StickerRoute(m: Message)
    requires StickerFamily(m.body)
    ensures Route(m) == StickerActions(m.body) && |Route(m)| == 1
  {
    FamiliesDisjoint(m.body);
    Quiet(m);
  }

  /** A message outside every command family is ignored. */
  lemma NoCommandIgnored(m: Message)
    requires !HelpFamily(m.body) && !OriginFamily(m.body) && !StickerFamily(m.body) && !EventsFamily(m.body)
    requires !JadwalpostFamily(m.body) && !JadwalkanFamily(m.body) && !DetailFamily(m.body)
    ensures Route(m) == []
  {
    Quiet(m);
  }

  /** In a private chat, `!groupid` and `!all` get only "works only in groups". */
  lemma GroupCommandsInPrivateChat(m: Message)
    requires !IsGroup(m.from) && (m.body == "!groupid" || m.body == "!all")
    ensures Route(m) == [OnlyInGroups]
  {
    FamiliesDisjoint(m.body);
    Quiet(m);
  }

  /**
   * The `!jadwalpost` family, matched case-insensitively: exactly one of guide
   * (the whole message), client list (`!jadwalpost klien...`) and one
   * client's schedule, in that order of precedence, and nothing else.
   */
  lemma JadwalpostPrecedence(m: Message)
    requires StartsWith(ToLower(m.body), "!jadwalpost")
    ensures |Route(m)| == 1
    ensures Route(m)[0] == JadwalpostGuide <==> ToLower(m.body) == "!jadwalpost"
    ensures Route(m)[0] == ListClients <==>
              ToLower(m.body) != "!jadwalpost" && StartsWith(ToLower(m.body), "!jadwalpost klien")
    ensures Route(m)[0].ClientSchedule? <==>
              ToLower(m.body) != "!jadwalpost" && !StartsWith(ToLower(m.body), "!jadwalpost klien")
  {
    FamiliesDisjoint(m.body);
    Quiet(m);
  }

  /** `!jadwalpost klien` goes to the client list, never to the per-client schedule. */
  lemma ClientListCommand(from: string, author: Option<string>)
    ensures Route(Message("!jadwalpost klien", from, author)) == [ListClients]
  {
    var body := "!jadwalpost klien";
    assert ToLower(body) == body;
    assert StartsWith(ToLower(body), "!jadwalpost");
    JadwalpostPrecedence(Message(body, from, author));
  }

  /**
   * `!jadwalkan`: with any of the four arguments missing or empty, only the
   * usage reply (and no calendar call); otherwise only the calendar call,
   * with the trimmed arguments and the time split at '-'.
   */
  lemma JadwalkanValidation(m: Message)
    requires StartsWith(m.body, "!jadwalkan")
    ensures !JadwalkanComplete(m.body) ==> Route(m) == [ScheduleUsage]
    ensures JadwalkanComplete(m.body) ==> Route(m) == [ScheduleOf(m.body)]
    ensures forall a :: a in Route(m) && a.ScheduleEvent? ==> JadwalkanComplete(m.body)
  {
    FamiliesDisjoint(m.body);
    Quiet(m);
  }

  /**
   * `!detail `: with the sheet or the code missing, only the usage reply;
   * otherwise only the lookup, of the code upper-cased.
   */
  lemma DetailValidation(m: Message)
    requires StartsWith(m.body, "!detail ")
    ensures |Route(m)| == 1
    ensures var (sheet, code) := DetailArgs(m.body);
      if Truthy(sheet) && Truthy(code) then Route(m) == [ShowDetail(sheet.value, code.value, ToUpper(code.value))]
      else Route(m) == [DetailUsage]
  {
    FamiliesDisjoint(m.body);
    Quiet(m);
  }

  /** `!events...`: only the event flow, with the query taken from index 8 and trimmed. */
  lemma EventsRouting(m: Message)
    requires StartsWith(m.body, "!events")
    ensures Route(m) == [SearchEvents(Trim(SliceFrom(m.body, 8)))]
  {
    FamiliesDisjoint(m.body);
    assert OriginActions(m) == [] && StickerActions(m.body) == [];
    assert JadwalpostActions(m.body) == [] && DetailActions(m.body) == [];
    assert !StartsWith(m.body, "!jadwalkan") && m.body != "!help" && m.body != "!all";
  }

  // ---------------------------------------------------------------- replies that depend on fetched data

  /** One line of the event list: `• ${summary} - ${startDate} - ${endDate}`. */
  datatype EventLine = EventLine(summary: string, startDate: string, endDate: string)

  /** The outcome of the `!events` flow. */
  datatype EventsReply =
    | EventsError                  // the fetch failed, or `find` met a warning line (a string has no summary)
    | EventList(lines: seq<EventLine>)
    | EventDetails(id: string)     // getEventDetails of the match
    | EventNotFound

  /** `event.summary.toLowerCase().includes(query.toLowerCase())` */
  predicate Matches(e: Calendar.UpcomingEvent, query: string) {
    Includes(ToLower(e.summary), ToLower(query))
  }

  /** A list line; a warning line is a string, so its three fields print as "undefined". */
  function LineOf(u: Calendar.Upcoming): EventLine {
    match u
    case Formatted(e) => EventLine(e.summary, e.startDate, e.endDate)
    case InvalidStart(_) => EventLine("undefined", "undefined", "undefined")
  }

  /** The first listed event matching the query, formatted, with every earlier line a non-matching event. */
  ghost predicate FirstMatchAt(query: string, events: seq<Calendar.Upcoming>, k: int, id: string) {
    0 <= k < |events| && events[k].Formatted? && events[k].event.id == id
    && Matches(events[k].event, query)
    && forall j :: 0 <= j < k ==> events[j].Formatted? && !Matches(events[j].event, query)
  }

  /** A first match after a non-matching head event is a first match of the whole list. */
  lemma FirstMatchShift(query: string, events: seq<Calendar.Upcoming>, id: string)
    requires |events| >= 1 && events[0].Formatted? && !Matches(events[0].event, query)
    requires exists k :: FirstMatchAt(query, events[1..], k, id)
    ensures exists k :: FirstMatchAt(query, events, k, id)
  {
    var k :| FirstMatchAt(query, events[1..], k, id);
    assert events[k + 1] == events[1..][k];
    assert forall j :: 1 <= j < k + 1 ==> events[j] == events[1..][j - 1];
    assert FirstMatchAt(query, events, k + 1, id);
  }

  /** A first match of a list whose head is a non-matching event is a first match of its tail. */
  lemma FirstMatchTail(query: string, events: seq<Calendar.Upcoming>)
    requires |events| >= 1 && events[0].Formatted? && !Matches(events[0].event, query)
    ensures forall k, id :: FirstMatchAt(query, events, k, id) ==> FirstMatchAt(query, events[1..], k - 1, id)
  {
    forall k, id | FirstMatchAt(query, events, k, id) ensures FirstMatchAt(query, events[1..], k - 1, id) {
      assert k != 0;
      assert events[1..][k - 1] == events[k];
      assert forall j :: 0 <= j < k - 1 ==> events[1..][j] == events[j + 1];
    }
  }

  /**
   * `events.find(...)` followed by the reply: the first matching event in
   * order, unless a warning line comes before it (then `find` throws).
   * `detailsAuth` is false when getEventDetails throws, which it does when
   * its authentication fails (that call is outside its `try`); the
   * handler's `catch` then gives the error reply.
   */
  function FindEvent(query: string, events: seq<Calendar.Upcoming>, detailsAuth: bool): (r: EventsReply)
    ensures !r.EventList?
    ensures r.EventNotFound? <==>
      forall i :: 0 <= i < |events| ==> events[i].Formatted? && !Matches(events[i].event, query)
    ensures r.EventDetails? ==> detailsAuth && exists k :: FirstMatchAt(query, events, k, r.id)
    ensures forall k, id :: FirstMatchAt(query, events, k, id) ==>
      r == (if detailsAuth then EventDetails(id) else EventsError)
  {
    if events == [] then EventNotFound
    else match events[0]
      case InvalidStart(_) => EventsError
      case Formatted(e) =>
        if Matches(e, query) then
          assert FirstMatchAt(query, events, 0, e.id);
          if detailsAuth then EventDetails(e.id) else EventsError
        else
          var r := FindEvent(query, events[1..], detailsAuth);
          FirstMatchTail(query, events);
          if r.EventDetails? then FirstMatchShift(query, events, r.id); r else r
  }

  /**
   * The `!events` flow: an empty query lists every fetched event, otherwise
   * the first match is shown or "not found" is replied.
   */
  function EventsReplyOf(query: string, fetched: Option<seq<Calendar.Upcoming>>, detailsAuth: bool): (r: EventsReply)
    ensures fetched.None? ==> r == EventsError
    ensures fetched.Some? && query == "" ==> r.EventList? && |r.lines| == |fetched.value|
    ensures fetched.Some? && query == "" ==> forall i :: 0 <= i < |r.lines| ==> r.lines[i] == LineOf(fetched.value[i])
    ensures fetched.Some? && query != "" ==> r == FindEvent(query, fetched.value, detailsAuth)
  {
    match fetched
    case None => EventsError
    case Some(events) =>
      if query == "" then EventList(seq(|events|, i requires 0 <= i < |events| => LineOf(events[i])))
      else FindEvent(query, events, detailsAuth)
  }

  /** The outcome of `!jadwalpost klien`. */
  datatype ClientsReply = ClientList(sheets: seq<string>) | NoClients | ClientsError

  /**
   * The client list flow. `sheetList` is what getSheetList yields: None when
   * it throws (authentication runs outside its `try`), and the empty list
   * when the API call itself fails.
   */
  function ClientsReplyOf(sheetList: Option<seq<string>>): (r: ClientsReply)
    ensures r.ClientsError? <==> sheetList.None?
    ensures r.NoClients? <==> sheetList == Some([])
    ensures r.ClientList? ==> sheetList == Some(r.sheets) && |r.sheets| > 0
  {
    match sheetList
    case None => ClientsError
    case Some(names) => if |names| > 0 then ClientList(names) else NoClients
  }

  /** The outcome of `!jadwalpost <client> [last]`. */
  datatype ScheduleReply =
    | ClientNotFound(shown: string)
    | Schedule(last: bool, heading: string, deadlines: seq<Sheets.Deadline>)
    | NoSchedule(sheet: string)
    | ScheduleError

  /** The ranking the option chooses: `last` the past deadlines, anything else the upcoming ones. */
  function Ranking(option: Option<string>, rows: seq<Sheets.Row>, parse: Sheets.DateParser,
                   startOfToday: int, now: int): seq<Sheets.Deadline> {
    if option == Some("last") then Sheets.LastDeadlines(rows, parse, now)
    else Sheets.UpcomingDeadlines(rows, parse, startOfToday)
  }

  /** The client is on the fetched sheet list. */
  predicate KnownClient(sheetName: Option<string>, sheetList: Option<seq<string>>) {
    sheetList.Some? && sheetName.Some? && sheetName.value in sheetList.value
  }

  /**
   * One client's schedule. `sheetList` and `rows` are what getSheetList and
   * the sheet fetch yield, None when they throw. An unknown (or missing)
   * client is refused, `last` picks the past deadlines, anything else the
   * upcoming ones; an empty ranking gets its own reply.
   */
  function ClientScheduleReply(sheetName: Option<string>, option: Option<string>, sheetList: Option<seq<string>>,
                               rows: Option<seq<Sheets.Row>>, parse: Sheets.DateParser,
                               startOfToday: int, now: int): (r: ScheduleReply)
    ensures r.ScheduleError? <==> sheetList.None? || (KnownClient(sheetName, sheetList) && rows.None?)
    ensures r.ClientNotFound? <==> sheetList.Some? && !KnownClient(sheetName, sheetList)
    ensures r.ClientNotFound? ==> r.shown == sheetName.GetOr("undefined")
    ensures KnownClient(sheetName, sheetList) && rows.Some? ==>
      (r.Schedule? <==> |Ranking(option, rows.value, parse, startOfToday, now)| > 0)
    ensures r.Schedule? ==> 1 <= |r.deadlines| <= 5 && r.last == (option == Some("last"))
    ensures r.Schedule? ==> r.heading == ToUpper(sheetName.value)
    ensures r.Schedule? && r.last ==> r.deadlines == Sheets.LastDeadlines(rows.value, parse, now)
    ensures r.Schedule? && !r.last ==> r.deadlines == Sheets.UpcomingDeadlines(rows.value, parse, startOfToday)
    ensures r.NoSchedule? ==> r.sheet == sheetName.value
  {
    match sheetList
    case None => ScheduleError
    case Some(names) =>
      if sheetName.None? then ClientNotFound("undefined")
      else if sheetName.value !in names then ClientNotFound(sheetName.value)
      else match rows
        case None => ScheduleError
        case Some(rs) =>
          var last := option == Some("last");
          var deadlines := Ranking(option, rs, parse, startOfToday, now);
          if |deadlines| > 0 then Schedule(last, ToUpper(sheetName.value), deadlines)
          else NoSchedule(sheetName.value)
  }

  /**
   * The client name is lower-cased before it is looked up in the sheet
   * list, so a sheet whose name has an upper-case letter is never chosen.
   */
  lemma UpperCaseSheetUnreachable(m: Message, sheet: string, i: nat)
    requires exists k :: 0 <= k < |sheet| && IsUpper(sheet[k])
    requires i < |Route(m)| && Route(m)[i].ClientSchedule?
    ensures Route(m)[i].sheetName != Some(sheet)
  {
    ScheduleOnlyFromJadwalpost(m, i);
    var parts := Split(m.body, ' ');
    assert Route(m)[i].sheetName == LowerOpt(At(parts, 1));
    if At(parts, 1).Some? {
      var name := ToLower(At(parts, 1).value);
      assert Route(m)[i].sheetName == Some(name);
      assert forall k :: 0 <= k < |name| ==> !IsUpper(name[k]);
    }
  }

  /** Only the `!jadwalpost` family produces a per-client schedule, and then it is the only action. */
  lemma ScheduleOnlyFromJadwalpost(m: Message, i: nat)
    requires i < |Route(m)| && Route(m)[i].ClientSchedule?
    ensures JadwalpostFamily(m.body) && Route(m) == JadwalpostActions(m.body) && i == 0
  {
    FamiliesDisjoint(m.body);
    Quiet(m);
  }

  /** The outcome of `!detail <sheet> <code>`. */
  datatype DetailReply = DetailFound(code: string, sheet: string, detail: Sheets.PostDetail)
                       | DetailNotFound(code: string, sheet: string)
                       | DetailError

  /**
   * The detail flow: `rows` is what the sheet fetch yields, None when it
   * throws. Found exactly when some row after the header has the upper-cased
   * code in column 0, and then the detail is that of the first such row; the
   * reply repeats the code as typed.
   */
  function DetailReplyOf(sheet: string, code: string, rows: Option<seq<Sheets.Row>>,
                         parse: Sheets.DateParser): (r: DetailReply)
    ensures r.DetailError? <==> rows.None?
    ensures !r.DetailError? ==> r.code == code && r.sheet == sheet
    ensures r.DetailFound? <==>
      rows.Some? && exists k :: 1 <= k < |rows.value| && Sheets.Cell(rows.value[k], 0) == Some(ToUpper(code))
    ensures r.DetailFound? ==> r.detail.code == Some(ToUpper(code))
    ensures r.DetailFound? ==> Some(r.detail) == Sheets.PostDetailByCode(rows.value, parse, ToUpper(code))
  {
    match rows
    case None => DetailError
    case Some(rs) =>
      match Sheets.PostDetailByCode(rs, parse, ToUpper(code))
      case Some(d) => DetailFound(code, sheet, d)
      case None => DetailNotFound(code, sheet)
  }

  /**
   * A scheduled post can be told from its calendar entry: the sheet argument
   * of `!jadwalkan` holds no space, so the event title gives back the sheet
   * and the code.
   */
  lemma ScheduledPostIsRecoverable(m: Message)
    requires StartsWith(m.body, "!jadwalkan") && JadwalkanComplete(m.body)
    ensures var a := ScheduleOf(m.body);
      Calendar.ParseSummary(Calendar.NewEventRequest(a.sheet, a.code, a.date, a.startTime, a.endTime).summary)
        == Some((a.sheet, a.code))
  {
    var parts := Split(m.body, ' ');
    var piece := parts[1];
    assert ' ' !in piece;
    TrimKeepsOut(piece, ' ');
  }
}

=== FILE: sheets.dfy ===
/**
 * The row processing of src/lib/googleSheets.js: the five nearest upcoming
 * deadlines, the five latest past deadlines, and the detail of a post found
 * by its code. The rows are those the sheet fetch returned (row 0 is the
 * header); the fetch itself is not modelled.
 */
module Sheets {
  import opened Wrappers

  type Row = seq<string>

  /**
   * `moment(cell, 'M/D/YYYY')`: the instant (in milliseconds) of the parsed
   * day, or None when moment marks the date invalid. An absent cell is handed
   * over as None, as `row[2]` is `undefined` on a short row.
   */
  type DateParser = Option<string> -> Option<int>

  /** `row[i]`: `undefined` past the end of a short row. */
  function Cell(row: Row, i: nat): Option<string> {
    if i < |row| then Some(row[i]) else None
  }

  /** The record both ranking functions build from a row. */
  datatype Deadline = Deadline(code: Option<string>, title: Option<string>, deadline: int,
                               format: Option<string>, postType: Option<string>, status: Option<string>)

  function DeadlineOf(row: Row, deadline: int): Deadline {
    Deadline(Cell(row, 0), Cell(row, 4), deadline, Cell(row, 1), Cell(row, 3), Cell(row, 9))
  }

  /** Which deadlines a ranking keeps: `isSameOrAfter(start)` or `isBefore(instant)`. */
  datatype Cutoff = OnOrAfter(start: int) | Before(instant: int)

  predicate Admits(c: Cutoff, d: int) {
    match c
    case OnOrAfter(t) => d >= t
    case Before(t) => d < t
  }

  /** The comparator handed to `sort`: `a.deadline - b.deadline` or `b.deadline - a.deadline`. */
  datatype Order = Ascending | Descending

  /** A kept row: its index in the sheet and the record built from it. */
  datatype Candidate = Candidate(index: nat, record: Deadline)

  function Key(c: Candidate): int { c.record.deadline }

  /** Row `k` (not the header) has a date that parses and passes the cutoff. */
  predicate Qualifies(rows: seq<Row>, parse: DateParser, cutoff: Cutoff, k: nat) {
    1 <= k < |rows| && parse(Cell(rows[k], 2)).Some? && Admits(cutoff, parse(Cell(rows[k], 2)).value)
  }

  function CandidateAt(rows: seq<Row>, parse: DateParser, k: nat): Candidate
    requires k < |rows| && parse(Cell(rows[k], 2)).Some?
  {
    Candidate(k, DeadlineOf(rows[k], parse(Cell(rows[k], 2)).value))
  }

  /** `c` is exactly what the `map` callback returns for a qualifying row. */
  predicate FromRow(c: Candidate, rows: seq<Row>, parse: DateParser, cutoff: Cutoff) {
    Qualifies(rows, parse, cutoff, c.index) && c == CandidateAt(rows, parse, c.index)
  }

  predicate RowsIncreasing(s: seq<Candidate>) {
    forall i, j :: 0 <= i < j < |s| ==> s[i].index < s[j].index
  }

  /**
   * `rows.slice(from).map(row => keep ? record : null).filter(e => e !== null)`:
   * exactly the qualifying rows at or after `from`, in row order.
   */
  function Selected(rows: seq<Row>, parse: DateParser, cutoff: Cutoff, from: nat): (s: seq<Candidate>)
    requires from >= 1
    ensures forall i :: 0 <= i < |s| ==> from <= s[i].index && FromRow(s[i], rows, parse, cutoff)
    ensures RowsIncreasing(s)
    ensures forall k :: from <= k < |rows| && Qualifies(rows, parse, cutoff, k) ==> CandidateAt(rows, parse, k) in s
    decreases |rows| - from
  {
    if from >= |rows| then []
    else
      var rest := Selected(rows, parse, cutoff, from + 1);
      if Qualifies(rows, parse, cutoff, from) then [CandidateAt(rows, parse, from)] + rest else rest
  }

  // ---------------------------------------------------------------- stable sort

  /** `b` belongs strictly after `a` by key alone. */
  predicate KeyBefore(a: Candidate, b: Candidate, ord: Order) {
    match ord
    case Ascending => Key(a) < Key(b)
    case Descending => Key(a) > Key(b)
  }

  /** The order a stable sort produces: by key, ties by row. */
  predicate Precedes(a: Candidate, b: Candidate, ord: Order) {
    KeyBefore(a, b, ord) || (Key(a) == Key(b) && a.index < b.index)
  }

  predicate Ranked(s: seq<Candidate>, ord: Order) {
    forall i, j :: 0 <= i < j < |s| ==> Precedes(s[i], s[j], ord)
  }

  /** Insert `x` before the first element the comparator does not rank before it. */
  function Insert(x: Candidate, s: seq<Candidate>, ord: Order): (r: seq<Candidate>)
    ensures multiset(r) == multiset(s) + multiset{x}
  {
    if s == [] || !KeyBefore(s[0], x, ord) then
      [x] + s
    else
      assert s == [s[0]] + s[1..];
      [s[0]] + Insert(x, s[1..], ord)
  }

  /**
   * Inserting an element that came first in the input into a ranked list
   * keeps it ranked: `x` goes after every strictly smaller key and before
   * every tie, which is what stability asks.
   */
  lemma {:induction false} InsertRanked(x: Candidate, s: seq<Candidate>, ord: Order)
    requires Ranked(s, ord)
    requires forall e :: e in s ==> x.index < e.index
    ensures Ranked(Insert(x, s, ord), ord)
  {
    if s == [] || !KeyBefore(s[0], x, ord) {
      assert forall k :: 0 <= k < |s| ==> s[k] in s;
    } else {
      assert s == [s[0]] + s[1..];
      var t := Insert(x, s[1..], ord);
      InsertRanked(x, s[1..], ord);
      forall j | 0 <= j < |t| ensures Precedes(s[0], t[j], ord) {
        assert t[j] in multiset(t);
        if t[j] != x {
          assert t[j] in s[1..];
          var m :| 0 <= m < |s[1..]| && s[1..][m] == t[j];
          assert s[m + 1] == t[j];
        }
      }
      assert Insert(x, s, ord) == [s[0]] + t;
    }
  }

  /** Insertion sort: a stable sort by the comparator. */
  function Sort(s: seq<Candidate>, ord: Order): (r: seq<Candidate>)
    ensures multiset(r) == multiset(s)
  {
    if s == [] then []
    else
      assert s == [s[0]] + s[1..];
      Insert(s[0], Sort(s[1..], ord), ord)
  }

  /** Sorting rows given in row order yields the stable comparator order. */
  lemma {:induction false} SortRanked(s: seq<Candidate>, ord: Order)
    requires RowsIncreasing(s)
    ensures Ranked(Sort(s, ord), ord)
  {
    if s != [] {
      var t := Sort(s[1..], ord);
      SortRanked(s[1..], ord);
      forall e | e in t ensures s[0].index < e.index {
        assert e in multiset(s[1..]);
        var m :| 0 <= m < |s[1..]| && s[1..][m] == e;
        assert s[m + 1] == e;
      }
      InsertRanked(s[0], t, ord);
    }
  }

  function Min(a: int, b: int): int { if a <= b then a else b }

  /** `sorted.slice(0, 5)` of the kept rows. */
  function TopFive(rows: seq<Row>, parse: DateParser, cutoff: Cutoff, ord: Order): (r: seq<Candidate>)
    ensures |r| == Min(5, |Selected(rows, parse, cutoff, 1)|)
  {
    var selected := Selected(rows, parse, cutoff, 1);
    var sorted := Sort(selected, ord);
    assert |sorted| == |multiset(sorted)| == |multiset(selected)| == |selected|;
    sorted[..Min(5, |sorted|)]
  }

  /** Every ranked row after the first five: outranked by the whole top five. */
  lemma TopFiveOutranks(sorted: seq<Candidate>, ord: Order, c: Candidate)
    requires Ranked(sorted, ord) && c in sorted
    ensures var r := sorted[..Min(5, |sorted|)];
      c in r || (|r| == 5 && forall i :: 0 <= i < 5 ==> Precedes(r[i], c, ord))
  {
    var r := sorted[..Min(5, |sorted|)];
    var p :| 0 <= p < |sorted| && sorted[p] == c;
    if p < 5 {
      assert r[p] == c;
    } else {
      forall i | 0 <= i < 5 ensures Precedes(r[i], c, ord) {
        assert r[i] == sorted[i];
      }
    }
  }

  /** The rows a ranking returns: none is the header, each qualifies and is built from its own row. */
  lemma TopFiveFromRows(rows: seq<Row>, parse: DateParser, cutoff: Cutoff, ord: Order)
    ensures var r := TopFive(rows, parse, cutoff, ord);
      forall i :: 0 <= i < |r| ==> 1 <= r[i].index && FromRow(r[i], rows, parse, cutoff)
  {
    var selected := Selected(rows, parse, cutoff, 1);
    var sorted := Sort(selected, ord);
    var r := TopFive(rows, parse, cutoff, ord);
    assert r == sorted[..Min(5, |sorted|)];
    forall i | 0 <= i < |r| ensures 1 <= r[i].index && FromRow(r[i], rows, parse, cutoff) {
      assert r[i] == sorted[i];
      SortedMember(selected, ord, i);
    }
  }

  /** Each element of the sorted list is one of the unsorted elements. */
  lemma SortedMember(s: seq<Candidate>, ord: Order, i: nat)
    requires i < |Sort(s, ord)|
    ensures exists m :: 0 <= m < |s| && s[m] == Sort(s, ord)[i]
  {
    var t := Sort(s, ord);
    assert t[i] in multiset(t);
    assert t[i] in multiset(s);
    assert t[i] in s;
  }

  /** Every qualifying row is in the ranking or outranked by all five rows of it. */
  lemma TopFiveComplete(rows: seq<Row>, parse: DateParser, cutoff: Cutoff, ord: Order, k: nat)
    requires Qualifies(rows, parse, cutoff, k)
    ensures var r := TopFive(rows, parse, cutoff, ord);
      CandidateAt(rows, parse, k) in r
      || (|r| == 5 && forall i :: 0 <= i < 5 ==> Precedes(r[i], CandidateAt(rows, parse, k), ord))
  {
    var selected := Selected(rows, parse, cutoff, 1);
    var sorted := Sort(selected, ord);
    SortRanked(selected, ord);
    var c := CandidateAt(rows, parse, k);
    assert c in multiset(sorted) by { assert c in selected; }
    TopFiveOutranks(sorted, ord, c);
  }

  /**
   * What a ranking returns: at most five rows, none of them the header, each
   * qualifying and built from its own row, in stable comparator order; and
   * every qualifying row is either in the result or outranked by all five.
   */
  lemma TopFiveSpec(rows: seq<Row>, parse: DateParser, cutoff: Cutoff, ord: Order)
    ensures var r := TopFive(rows, parse, cutoff, ord);
      && |r| <= 5
      && Ranked(r, ord)
      && (forall i :: 0 <= i < |r| ==> 1 <= r[i].index && FromRow(r[i], rows, parse, cutoff))
      && (forall k :: Qualifies(rows, parse, cutoff, k) ==>
            CandidateAt(rows, parse, k) in r
            || (|r| == 5 && forall i :: 0 <= i < 5 ==> Precedes(r[i], CandidateAt(rows, parse, k), ord)))
  {
    var selected := Selected(rows, parse, cutoff, 1);
    SortRanked(selected, ord);
    TopFiveFromRows(rows, parse, cutoff, ord);
    forall k | Qualifies(rows, parse, cutoff, k)
      ensures var r := TopFive(rows, parse, cutoff, ord);
              CandidateAt(rows, parse, k) in r
              || (|r| == 5 && forall i :: 0 <= i < 5 ==> Precedes(r[i], CandidateAt(rows, parse, k), ord))
    {
      TopFiveComplete(rows, parse, cutoff, ord, k);
    }
  }

  /** The records of a ranking, in order (the objects the JavaScript function returns). */
  function Records(s: seq<Candidate>): (r: seq<Deadline>)
    ensures |r| == |s| && forall i :: 0 <= i < |s| ==> r[i] == s[i].record
  {
    seq(|s|, i requires 0 <= i < |s| => s[i].record)
  }

  /**
   * `getUpcomingDeadlines`: at most five records, each due on or after the
   * start of today, non-decreasing by deadline.
   */
  function UpcomingDeadlines(rows: seq<Row>, parse: DateParser, startOfToday: int): (r: seq<Deadline>)
    ensures |r| <= 5
    ensures forall i :: 0 <= i < |r| ==> r[i].deadline >= startOfToday
    ensures forall i, j :: 0 <= i < j < |r| ==> r[i].deadline <= r[j].deadline
  {
    TopFiveSpec(rows, parse, OnOrAfter(startOfToday), Ascending);
    Records(TopFive(rows, parse, OnOrAfter(startOfToday), Ascending))
  }

  /**
   * `getLastDeadlines`: at most five records, each due strictly before now,
   * non-increasing by deadline.
   */
  function LastDeadlines(rows: seq<Row>, parse: DateParser, now: int): (r: seq<Deadline>)
    ensures |r| <= 5
    ensures forall i :: 0 <= i < |r| ==> r[i].deadline < now
    ensures forall i, j :: 0 <= i < j < |r| ==> r[i].deadline >= r[j].deadline
  {
    TopFiveSpec(rows, parse, Before(now), Descending);
    Records(TopFive(rows, parse, Before(now), Descending))
  }

  /** Equal deadlines keep their row order, in either ranking. */
  lemma TiesKeepRowOrder(rows: seq<Row>, parse: DateParser, cutoff: Cutoff, ord: Order, i: nat, j: nat)
    requires var r := TopFive(rows, parse, cutoff, ord); i < j < |r| && Key(r[i]) == Key(r[j])
    ensures var r := TopFive(rows, parse, cutoff, ord); r[i].index < r[j].index
  {
    TopFiveSpec(rows, parse, cutoff, ord);
  }

  /** Neither the header nor a row whose date does not parse ever reaches a ranking. */
  lemma HeaderAndBadDatesExcluded(rows: seq<Row>, parse: DateParser, cutoff: Cutoff, ord: Order, k: nat)
    requires k == 0 || (k < |rows| && parse(Cell(rows[k], 2)).None?)
    ensures forall c :: c in TopFive(rows, parse, cutoff, ord) ==> c.index != k
  {
    TopFiveSpec(rows, parse, cutoff, ord);
  }

  /**
   * Every record of a ranking is read from fixed columns of one row after the
   * header: code 0, format 1, deadline 2 (parsed), type 3, title 4, status 9.
   */
  lemma RecordColumns(rows: seq<Row>, parse: DateParser, cutoff: Cutoff, ord: Order, i: nat)
    requires i < |Records(TopFive(rows, parse, cutoff, ord))|
    ensures var d := Records(TopFive(rows, parse, cutoff, ord))[i];
      exists k :: 1 <= k < |rows| && parse(Cell(rows[k], 2)) == Some(d.deadline)
                  && d.code == Cell(rows[k], 0) && d.format == Cell(rows[k], 1)
                  && d.postType == Cell(rows[k], 3) && d.title == Cell(rows[k], 4)
                  && d.status == Cell(rows[k], 9)
  {
    TopFiveFromRows(rows, parse, cutoff, ord);
    var c := TopFive(rows, parse, cutoff, ord)[i];
    assert 1 <= c.index < |rows| && FromRow(c, rows, parse, cutoff);
  }

  // ---------------------------------------------------------------- lookup by code

  /** The record `getPostDetailByCode` builds from the matching row. */
  datatype PostDetail = PostDetail(code: Option<string>, format: Option<string>, deadline: Option<int>,
                                   postType: Option<string>, title: Option<string>, copy: Option<string>,
                                   details: Option<string>, reference: Option<string>,
                                   caption: Option<string>, status: Option<string>)

  function DetailOf(row: Row, parse: DateParser): PostDetail {
    PostDetail(Cell(row, 0), Cell(row, 1), parse(Cell(row, 2)), Cell(row, 3), Cell(row, 4),
               Cell(row, 5), Cell(row, 6), Cell(row, 7), Cell(row, 8), Cell(row, 9))
  }

  /** `rows.slice(from).find(row => row[0] === code)`, as a row index: the first match, or none. */
  function FindCode(rows: seq<Row>, code: string, from: nat): (r: Option<nat>)
    ensures r.Some? ==> from <= r.value < |rows| && Cell(rows[r.value], 0) == Some(code)
    ensures r.Some? ==> forall k :: from <= k < r.value ==> Cell(rows[k], 0) != Some(code)
    ensures r.None? ==> forall k :: from <= k < |rows| ==> Cell(rows[k], 0) != Some(code)
    decreases |rows| - from
  {
    if from >= |rows| then None
    else if Cell(rows[from], 0) == Some(code) then Some(from)
    else FindCode(rows, code, from + 1)
  }

  /**
   * `getPostDetailByCode`: null exactly when no row after the header has
   * `code` in column 0; otherwise the detail of the first such row.
   */
  function PostDetailByCode(rows: seq<Row>, parse: DateParser, code: string): (r: Option<PostDetail>)
    ensures r.None? <==> forall k :: 1 <= k < |rows| ==> Cell(rows[k], 0) != Some(code)
    ensures r.Some? ==> r.value.code == Some(code)
    ensures r.Some? ==> exists k :: 1 <= k < |rows| && r.value == DetailOf(rows[k], parse)
                                    && FindCode(rows, code, 1) == Some(k)
    ensures r.Some? ==> exists k :: 1 <= k < |rows| && FindCode(rows, code, 1) == Some(k)
                                    && r.value.format == Cell(rows[k], 1) && r.value.deadline == parse(Cell(rows[k], 2))
                                    && r.value.postType == Cell(rows[k], 3) && r.value.title == Cell(rows[k], 4)
                                    && r.value.copy == Cell(rows[k], 5) && r.value.details == Cell(rows[k], 6)
                                    && r.value.reference == Cell(rows[k], 7) && r.value.caption == Cell(rows[k], 8)
                                    && r.value.status == Cell(rows[k], 9)
  {
    match FindCode(rows, code, 1)
    case None => None
    case Some(k) => Some(DetailOf(rows[k], parse))
  }
}

=== FILE: wrappers.dfy ===
/** The absent-or-present value used wherever the JavaScript code may see `undefined` or `null`. */
module Wrappers {

  datatype Option<+T> = None | Some(value: T) {

    /** The value when present, otherwise `default` (the `x ?? default` idiom). */
    function GetOr(default: T): T {
      match this
      case Some(v) => v
      case None => default
    }
  }
}
